=== FILE: README.md ===
# ScriptMgr: script tables, name registry, hook dispatch and text announcer

This project is a Dafny model of the script manager of a MaNGOS-family game
server (`src/game/ScriptMgr.cpp`). It covers four parts, and proves
properties of each.

- **Script tables.** `LoadScripts` validates each row of a `*_scripts`
  database table and builds the table of timed script steps. Steps are
  grouped by script id and ordered by delay within a group.
- **Name registry.** `LoadScriptNames` builds the sorted vector of script
  names, and `GetScriptId` turns a name into its id by binary search.
- **Hook table.** `Script::RegisterSelf` and `ScriptMgr::Initialize` put
  compiled scripts into the slots of their names. The `On*`/`Get*`
  dispatchers look a subject's script up in that table. They call the
  hook when it is set, some clearing the player's menus first, and
  otherwise answer a neutral value.
- **Text announcer.** `DoScriptText` and `DoOrSimulateScriptTextForMap`
  resolve a text id by its sign, play its sound, perform its emote and say
  it on the channel of its chat type.

The model also covers the extra data of the script text tables, the escort
data loader with its last-waypoint loop, and `FillSpellSummary`.

Database rows, catalogs (creature templates, quests, spells, …) and header
constants are inputs. Constants that the file only names (the `CHAT_TYPE_*`
codes, `SF_GENERAL_SWAP_*` flags, the `*_MAX` bounds, the visibility and
interaction distances) are fields of `Defs.Codes`. Constants written out in
the file are concrete, for example:

- the cast-flag mask `~0x3`;
- the movement-option bound 511;
- the periodic-heal aura 8.

The lock-state bits are the one exception. The code names them
`SF_GOLOCKSTATE_LOCK`, `_UNLOCK`, `_NO_INTERACT` and `_INTERACT`
(lines 545-551). The model uses the values `0x01`, `0x02`, `0x04` and
`0x08` that the comments beside those tests give. `SF_GOLOCKSTATE_MAX`
stays a field of `Defs.Codes`.

Every call the server makes on the world becomes an element of an effect
trace. This covers sounds, emotes, chat, menu clearing, hook calls and
logged errors. A call's behaviour is therefore stated as its trace.

Where the code and its documentation disagree, the model follows the code:

- **TALK text ids.** A TALK row with a negative text id is **kept**, with a
  warning per negative id. The inner `continue` at
  `src/game/ScriptMgr.cpp:204-211` only advances the `for` loop over the
  ids. The documented rule "all text ids ≥ 0" would drop the row.
- **QUEST_EXPLORED flag upgrade.** The quest's exploration flag is set
  before the distance checks (line 269). A row dropped for its distance
  has still flagged its quest. Later rows of the same load see the updated
  quest.
- **Distance checks.** The second "too large distance" check (lines
  281-286) can never fire after the first one (274-279). It is modelled
  once.
- **Map-wide text sound.** `DoOrSimulateScriptTextForMap` plays a text's
  sound without checking it against the sound store. `DoScriptText` does
  check it.
- **Chat type width.** Both text functions keep the chat type in a `uint8`,
  so a stored type or override of 256 or more is taken modulo 256. The
  text loader reads the type as an unsigned 32-bit column (line 1349) and
  checks it against zone yell (line 1366). `StringTextData` is declared
  outside this file, so the loader's check and the stored row keep the
  column's value untruncated; this assumes the field is at least 32 bits
  wide.

## Model

| member | source | states |
|---|---|---|
| ScriptValidator.ValidateRow | src/game/ScriptMgr.cpp:117-653 | A row is kept exactly when it satisfies the independent reference predicate `RowValid`. `RowValid` combines three stages: the buddy resolves, the swap flags are not both set without a buddy, and the opcode's payload passes its check. A quest is flagged exactly when the row passes the first two stages, is QUEST_EXPLORED, and names an existing quest that lacks the exploration flag. The warnings a row logs are stated too. An unknown buddy type is reported exactly when the row has a buddy of that type (lines 173-176). A kept TALK row reports each of its negative text ids and nothing else of that kind (204-211). The "quest modified" message appears exactly for the flagged quest (264-270). |
| ScriptValidator.CommandWarnings | src/game/ScriptMgr.cpp:188-653 | The opcode stage warns only about the negative text ids of a kept TALK command and about the quest it flags. |
| ScriptValidator.CommandMatchesReference | src/game/ScriptMgr.cpp:188-653 | The opcode `switch` keeps a command exactly when `CommandValid` holds for it. It flags exactly the quests of QUEST_EXPLORED commands that exist and lack the flag. |
| ScriptValidator.CastFlagsMask | src/game/ScriptMgr.cpp:398-403 | `flags & ~0x3` is zero exactly when the cast flags are at most 3. |
| ScriptValidator.NegativeTextIds | src/game/ScriptMgr.cpp:204-211 | Every negative text id of a TALK row draws a warning, and every warning names a negative id of the row. |
| ScriptValidator.MissingSlots | src/game/ScriptMgr.cpp:426-446 | An equipment slot is reported exactly when it is positive and names no item. |
| ScriptTable.UpperBound | src/game/ScriptMgr.cpp:660 | The multimap's insert position follows every step whose delay is at most the new delay, and the step there (if any) has a larger delay. |
| ScriptTable.UpperBoundSplits | src/game/ScriptMgr.cpp:660 | In a delay-sorted group, every step from the insert position on has a larger delay than the new one. |
| ScriptTable.InsertByDelay | src/game/ScriptMgr.cpp:660 | Inserting into the multimap adds exactly the new step and loses none, counted with multiplicity. |
| ScriptTable.InsertByDelaySorted | src/game/ScriptMgr.cpp:660 | Inserting keeps a group delay-sorted; the new step follows every step of equal or smaller delay and precedes every larger one, which keep their order. |
| ScriptTable.AddRow | src/game/ScriptMgr.cpp:655-660 | Adding a step creates its group on first use, adds no other key and leaves the other scripts' groups as they were. The touched group gains exactly the new step, counted with multiplicity. |
| ScriptTable.AddRowSorted | src/game/ScriptMgr.cpp:655-660 | Adding a step keeps every group of the table delay-sorted. |
| ScriptTable.GroupSorted | src/game/ScriptMgr.cpp:655-662 | Every group of a table built by inserting rows one by one is delay-sorted. |
| ScriptTable.WithIdMembers | src/game/ScriptMgr.cpp:655-662 | The steps picked out for a script id are exactly the rows that carry that id. |
| ScriptTable.GroupKeys | src/game/ScriptMgr.cpp:655-662 | The table built from some rows has a group for exactly the script ids that occur in them. |
| ScriptTable.GroupContents | src/game/ScriptMgr.cpp:655-662 | Each group holds exactly the rows with its id, counted with multiplicity. |
| ScriptTable.GroupMembers | src/game/ScriptMgr.cpp:655-662 | A step found in a group is one of the rows and carries that group's id. |
| ScriptTable.InsertByDelayStable | src/game/ScriptMgr.cpp:660 | The multimap insert is stable. Among the steps of any one delay, the new step comes last and the others keep their order. |
| ScriptTable.AtDelaySplice | src/game/ScriptMgr.cpp:660 | Placing a step just before steps with larger delays adds it at the end of its own delay's steps. |
| ScriptTable.GroupOfStep | src/game/ScriptMgr.cpp:655-662 | Loading one more row appends it after the steps of its own group that share its delay, and leaves every other group's steps of each delay as they were. |
| ScriptTable.GroupStable | src/game/ScriptMgr.cpp:655-662 | Steps of one script with equal delays keep load order. For every delay, a group lists its steps with that delay in the order the rows came. |
| ScriptLoader.AcceptedRows | src/game/ScriptMgr.cpp:89-664 | The kept rows are exactly the rows that satisfy `RowValid`. |
| ScriptLoader.MarkExplored | src/game/ScriptMgr.cpp:264-270 | Setting exploration flags changes only quest flags and keeps every other catalog intact. Afterwards a quest has the flag exactly when it had it before or is one of the marked quests. |
| ScriptLoader.MarkExploredInsert | src/game/ScriptMgr.cpp:264-270 | Marking one more quest amounts to setting that quest's exploration flag. |
| ScriptLoader.FlaggedAfterMarking | src/game/ScriptMgr.cpp:264-270 | Once some quests carry the exploration flag, a row flags its quest exactly when it did before and that quest is not among them. |
| ScriptLoader.VerdictIgnoresQuestFlags | src/game/ScriptMgr.cpp:255-296 | Whether a row is kept does not depend on the quests' exploration flags. Flagging during the load therefore never changes a later row's verdict. |
| ScriptLoader.LoadAllMatchesReference | src/game/ScriptMgr.cpp:89-664 | Loading row by row, each row checked against the catalogs as earlier rows left them, gives three results: the kept rows grouped by id, their count, and the initial catalogs with every flagged quest marked explored. |
| ScriptLoader.LoadScripts | src/game/ScriptMgr.cpp:63-670 | While a timed script is scheduled, the loader changes nothing. Otherwise the table is cleared and rebuilt from exactly the valid rows, grouped by id and ordered by delay. The count is the number of kept rows, and the quests some row flagged are marked explored. |
| ScriptLoader.LoadedTableKeys | src/game/ScriptMgr.cpp:655-662 | After the load, a script id has a group exactly when some valid row carries it. |
| ScriptLoader.LoadedTableGroups | src/game/ScriptMgr.cpp:655-662 | Each group of the rebuilt table is ordered by delay and holds only valid rows of its own id. A dropped row appears nowhere. |
| NameRegistry.Insert | src/game/ScriptMgr.cpp:945 | Inserting into a sorted vector keeps it sorted and adds exactly the new name. |
| NameRegistry.SortNames | src/game/ScriptMgr.cpp:945 | `std::sort` yields a sorted permutation of its input. |
| NameRegistry.BuildNames | src/game/ScriptMgr.cpp:907-947 | The registry is a sorted permutation of the empty name followed by the database names. The empty name is at position 0. An empty query result leaves only the empty name. |
| NameRegistry.BuildNamesStrictlySorted | src/game/ScriptMgr.cpp:909-921 | Distinct, non-empty database names, as the `DISTINCT`/`UNION` query with `<> ''` returns them, give a registry without duplicates. |
| NameRegistry.LowerBoundFrom | src/game/ScriptMgr.cpp:956-957 | The halving search of `std::lower_bound` returns the point that splits a sorted range into names below the key and names not below it. |
| NameRegistry.LowerBound | src/game/ScriptMgr.cpp:956-957 | `std::lower_bound` over the whole vector finds that partition point. |
| NameRegistry.GetScriptId | src/game/ScriptMgr.cpp:949-963 | A null name gives 0. A non-zero result is the position of the name's first occurrence. The result is non-zero exactly when the name is registered and is not the name at position 0. |
| NameRegistry.FoundAtItsPosition | src/game/ScriptMgr.cpp:949-963 | In a registry without duplicates, every name at a position above 0 resolves to exactly that position. |
| NameRegistry.LoadedNamesResolve | src/game/ScriptMgr.cpp:907-963 | Every name loaded from the database resolves to a non-zero id whose slot holds that name. |
| HookTable.Empty | src/game/ScriptMgr.cpp:1302 | Resizing gives one empty slot per registered name and a zero counter. |
| HookTable.RegisterSelf | src/game/ScriptMgr.cpp:1873-1891 | A script whose name has a non-zero id takes that slot and increments the counter, and other slots are unchanged. Otherwise nothing changes. The error is logged exactly when the id is 0, reporting is on, and the name contains neither "generic" nor "npc_escort". |
| HookTable.RegisterAllSlots | src/game/ScriptMgr.cpp:1302-1306 | After all registrations into the empty table, each slot above 0 holds the last script registered for it. Slot 0 stays empty. The counter is the number of scripts that found a slot. |
| HookTable.RegisterAllReports | src/game/ScriptMgr.cpp:1881-1888 | The registration error log names exactly the scripts whose name has no id, that ask to report, and whose name is not quiet. |
| HookTable.MissingFrom | src/game/ScriptMgr.cpp:1309-1313 | The check loop, from a given id on, reports exactly the empty slots, in increasing order. |
| HookTable.MissingScripts | src/game/ScriptMgr.cpp:1309-1313 | The check loop reports exactly the empty slots from 1 up, in increasing order. |
| HookTable.Initialize | src/game/ScriptMgr.cpp:1291-1316 | The table is sized to the name registry. The counter never exceeds the number of registrations. The names reported as missing are exactly the empty slots from 1 up, in increasing order. |
| HookTable.InitializeReportsUnclaimed | src/game/ScriptMgr.cpp:1309-1313 | `Initialize` reports a name exactly when no registration resolved to it. |
| HookTable.InitializeSlotNames | src/game/ScriptMgr.cpp:1302-1313 | A filled slot is above 0 and holds a script registered under that slot's name. |
| HookTable.LastForResolves | src/game/ScriptMgr.cpp:1875-1878 | The last script registered for a non-zero id has a name that resolves to that id. |
| HookTable.ScriptIdFor | src/game/ScriptMgr.cpp:965-981 | A trigger or event id maps to its script id, or to 0 when it has no mapping. |
| Dispatcher.Dispatch | src/game/ScriptMgr.cpp:983-1264 | A dispatcher calls a hook exactly when the looked-up slot holds a script that sets the needed hook, and it returns that hook's result. Otherwise it answers false, null, or "dialog status undefined", with no side effect. The hook call is the last effect. Menus are cleared at most once, and only those of the call's own player. A call that owns no menu has exactly the one hook call as its trace, so the hook runs once. |
| Dispatcher.ClearOnlyBeforeHook | src/game/ScriptMgr.cpp:1013-1193 | A player's menus are cleared exactly when the call clears menus for that player and the hook is present. The trace is then the clearing followed by the hook call. |
| Dispatcher.NeverClearMenus | src/game/ScriptMgr.cpp:1173-1264 | Opening a game object, using an item, reaching an area trigger, processing an event, and the dummy effects never clear menus. Their trace is exactly the one hook call, or empty when there is no hook. |
| Dispatcher.GossipSelectNoFallback | src/game/ScriptMgr.cpp:1037-1087 | Gossip selection with a code answers false when the coded hook is missing, and without a code when the plain hook is missing. There is no fallback between the two. |
| Dispatcher.UnmappedIdsAreNeutral | src/game/ScriptMgr.cpp:1205-1224 | After `Initialize`, an area trigger or event without a script mapping reaches slot 0, which is empty. It answers false with no side effect. |
| Dispatcher.RegisterThenDispatch | src/game/ScriptMgr.cpp:1873-1878 | After a script registers under its name, a call for that name's id reaches each hook the script sets. |
| TextAnnouncer.Resolve | src/game/ScriptMgr.cpp:1697-1726 | A non-negative id is looked up among the broadcast texts and a negative id in the script text data. Lookup fails exactly when the id is absent from its store. |
| TextAnnouncer.EffectiveType | src/game/ScriptMgr.cpp:1692-1729 | A non-zero override replaces the stored chat type. The type is truncated to 8 bits. |
| TextAnnouncer.DoScriptText | src/game/ScriptMgr.cpp:1684-1726 | A missing source, or a text id that resolves to nothing, logs one error and emits nothing. Every emission needs both. With both present, `DoScriptTextStages` fixes the trace's order and size. |
| TextAnnouncer.DoScriptTextStages | src/game/ScriptMgr.cpp:1734-1791 | With the source and text present, the whole trace is the sound stage, then the emote stage, then the chat `switch`. Each stage adds at most one effect, its own action or its own error. No other effect or error appears, so the trace has at most three effects. |
| TextAnnouncer.DoScriptTextSound | src/game/ScriptMgr.cpp:1734-1748 | With a source and a text, a call plays the text's sound to the speaker exactly when the sound is non-zero and known and the type is not zone yell. It plays it to the speaker's map exactly when the type is zone yell and the speaker has a map. It plays no other sound, and it logs the invalid-sound error exactly when the sound is non-zero and unknown. |
| TextAnnouncer.DoScriptTextEmote | src/game/ScriptMgr.cpp:1750-1756 | With a source and a text, a call performs the text's emote exactly when the emote is non-zero and the speaker is a unit or a player. It performs no other emote, and it logs an error for an emote from any other speaker. |
| TextAnnouncer.DoScriptTextChannel | src/game/ScriptMgr.cpp:1758-1791 | With distinct chat codes, a source and a text, the call's last effect is the speech on the channel of the effective type. That is say, yell, text emote, boss emote, whisper or boss whisper to a player target, or zone yell. A whisper without a player target instead ends with the error. A type that is none of the seven codes says nothing: one above zone yell, or one in a gap between the codes. |
| TextAnnouncer.DoScriptTextSpeaksLast | src/game/ScriptMgr.cpp:1734-1791 | Nothing is said before the sound and the emote: only the last effect of a call can be speech. |
| TextAnnouncer.ChatNoSoundOrEmote | src/game/ScriptMgr.cpp:1758-1791 | The chat `switch` produces one effect at most, never a sound, an emote or their errors. |
| TextAnnouncer.SoundRouting | src/game/ScriptMgr.cpp:1734-1748 | No sound id means no sound, and an unknown sound is only logged. A valid sound goes to the speaker's map for a zone yell, or nowhere if the speaker has no map, and to the speaker otherwise. |
| TextAnnouncer.EmoteOnlyForUnits | src/game/ScriptMgr.cpp:1750-1756 | An emote is performed exactly when there is one and the speaker is a unit or a player. |
| TextAnnouncer.WhisperOnlyToPlayers | src/game/ScriptMgr.cpp:1772-1787 | Every whisper is addressed to the call's target, and that target is a player. |
| TextAnnouncer.ChannelFollowsType | src/game/ScriptMgr.cpp:1758-1791 | With distinct chat codes, each of the seven types selects exactly its own channel. A whisper without a player target is an error. The channel part is empty exactly when the type is none of the seven codes. |
| TextAnnouncer.OverrideIgnoresStoredType | src/game/ScriptMgr.cpp:1728-1729 | With a non-zero override, the text row's stored type does not affect the call. |
| TextAnnouncer.DoOrSimulateScriptTextForMap | src/game/ScriptMgr.cpp:1804-1817 | A missing map, or a creature entry without a template, logs one error and emits nothing. The trace has at most two effects. |
| TextAnnouncer.MapTextOnlyZoneYell | src/game/ScriptMgr.cpp:1804-1871 | The map variant emits anything exactly when the map and template exist, the text resolves, and its type is zone yell. It then ends with a yell to the map, in the given creature's name or else the template's. It plays the text's sound exactly when the sound id is non-zero. |
| TextData.RowDiagnostics | src/game/ScriptMgr.cpp:1353-1369 | A non-negative id draws only the "not negative" error. A negative id draws the sound, language and chat-type errors exactly when each check fails. |
| TextData.LoadTextsContents | src/game/ScriptMgr.cpp:1341-1373 | After the load, a negative id holds the attributes of its last row, whatever that row's diagnostics. Ids without a row keep their earlier data, and non-negative ids are never added. The count is the number of negative-id rows. |
| TextData.RowKeptUnlessIdNotNegative | src/game/ScriptMgr.cpp:1353-1372 | A negative-id row is always stored. Only a non-negative id drops a row. |
| EscortData.LastWaypoint | src/game/ScriptMgr.cpp:1564-1570 | The last waypoint is the largest point id of the path: it bounds every point id and is one of them. |
| EscortData.LoadEscortRow | src/game/ScriptMgr.cpp:1546-1572 | A row makes an entry exactly when its creature has a template and waypoints. The entry carries the row's quest and faction and the path's largest point id. A missing script name is only reported. |
| EscortData.LastAccepted | src/game/ScriptMgr.cpp:1571 | The position found is a row of that creature that made an entry. |
| EscortData.LastAcceptedIsLast | src/game/ScriptMgr.cpp:1571 | It finds the last such row, and finds none exactly when there is none. |
| EscortData.LoadEscortData | src/game/ScriptMgr.cpp:1524-1587 | A creature has an escort entry exactly when one of its rows made one, and the entry comes from its last such row. The count is the number of rows that made an entry. Every rejected row is reported. |
| EscortData.LoadedEscortsAreLastRows | src/game/ScriptMgr.cpp:1571 | Later rows for a creature replace earlier ones, so no accepted row of that creature follows the one kept. |
| SpellSummary.FillSpellSummary | src/game/ScriptMgr.cpp:1893-1977 | The summary has one entry per spell id below the maximum. A missing spell has empty masks, and an existing spell has its slots' summary. |
| SpellSummary.SummarizeTargets | src/game/ScriptMgr.cpp:1911-1957 | A spell has a target flag exactly when one of its effect slots contributes it. |
| SpellSummary.SummarizeEffects | src/game/ScriptMgr.cpp:1959-1976 | A spell has an effect flag exactly when one of its effect slots contributes it. |
| SpellSummary.SummaryTargetsNested | src/game/ScriptMgr.cpp:1913-1957 | A spell has "any enemy" exactly when it has "single enemy" or "area enemy", and likewise for friends. Self-targeting implies "single friend". |
| SpellSummary.PeriodicHealIsHealingAura | src/game/ScriptMgr.cpp:1967-1976 | An aura-applying slot with aura 8 marks the spell as both healing and aura. |

## Left out

- Database access, result iteration, progress bars and log text are left out. Query results are sequences of rows, and each log line is a constructor of a diagnostic datatype.
- `MaNGOS::IsValidMapCoord` (floating-point coordinates) is left out. Its verdict is the `coordsValid` field of a script row. The distance checks compare exact reals, not `float`.
- The referential passes (`CheckAllScriptTexts`, `CheckScriptTexts`, `CollectPossibleEventIds`) and the per-table wrappers (`LoadGameObjectScripts` …) are left out. After `LoadScripts` returns, they run log-only cross-reference checks and never change the tables. Examples are TALK ids against the broadcast texts (lines 796-812), and game object guids, quests, spells with a script effect, and event ids (672-780).
- Row I/O of `LoadAreaTriggerScripts` and `LoadEventIdScripts` is left out. Their maps are inputs, and only the lookup (`ScriptIdFor`) is modelled.
- `LoadMangosStrings` and `LoadScriptGossipTexts` are left out: the text bodies and their locales live in the object manager, which is not part of this model.
- `LoadScriptWaypoints` is left out. The waypoint ids per creature are an input of the escort loader.
- The `BETWEEN` id ranges of the text-data queries are left out: rows are whatever the query returned.
- Memory management (`delete this` in `RegisterSelf`, `delete[]` of the summary) and the singleton accessors are left out.
- Hook arguments and results are opaque (`HookRef`). A hook call is recorded, not executed.
- Dispatcher.Dispatch: requires the looked-up slot to be inside the table, because the server indexes `m_scripts` without a range check.
- Fixed-width fields: the `MAX_TEXT_ID` text ids of a TALK row (the constant is defined outside this file) and the three equipment slots of SET_EQUIPMENT are sequences of any length. Every property stated about them holds for every length, including the source's.
- SpellSummary.FillSpellSummary: a spell's three effect slots are a sequence of any length, and the masks are sets of flags rather than `1 << (flag - 1)` bits.
- ScriptLoader.LoadScripts: its error log is stated only through the functional fold `LoadAll` it equals, not row by row.
- String order: names compare by character code, as `std::string::operator<` does for the ASCII names of the database.
- `AddScripts` (the generated list of script registrations) is an input sequence of registrations.

=== FILE: defs.dfy ===
/** Shared vocabulary of the script manager model: fixed-width integers,
    the Option wrapper, flag tests, and the enumeration codes that the
    server's headers define. Those codes are kept symbolic: every operation
    that needs one receives a `Codes` record instead of a literal. */
module Defs {

  /** A value of an unsigned 32-bit database column. */
  type u32 = x: int | 0 <= x < 0x1_0000_0000

  datatype Option<+T> = None | Some(value: T)

  /** The bit pattern of an unsigned 32-bit column. */
  function Bits(x: u32): bv32 {
    x as bv32
  }

  /** True when `x` has at least one of the bits of `flag` set (`x & flag` in C). */
  predicate HasFlag(x: u32, flag: bv32) {
    Bits(x) & flag != 0
  }

  /** The seven chat types a script text can be emitted with. */
  datatype ChatCodes = ChatCodes(
    say: nat,
    yell: nat,
    textEmote: nat,
    bossEmote: nat,
    whisper: nat,
    bossWhisper: nat,
    zoneYell: nat)
  {
    /** The codes are pairwise distinct (they are labels of one `switch`),
        zone yell is the largest (the loaders use it as the upper bound of
        the enumeration) and all fit the 8-bit type the announcer keeps. */
    predicate Valid() {
      && zoneYell < 256
      && say < zoneYell && yell < zoneYell && textEmote < zoneYell
      && bossEmote < zoneYell && whisper < zoneYell && bossWhisper < zoneYell
      && say != yell && say != textEmote && say != bossEmote && say != whisper && say != bossWhisper
      && yell != textEmote && yell != bossEmote && yell != whisper && yell != bossWhisper
      && textEmote != bossEmote && textEmote != whisper && textEmote != bossWhisper
      && bossEmote != whisper && bossEmote != bossWhisper
      && whisper != bossWhisper
    }

    /** `t` is one of the seven codes, a case label of the announcer's `switch`. */
    predicate Listed(t: nat) {
      t == say || t == yell || t == textEmote || t == bossEmote
      || t == whisper || t == bossWhisper || t == zoneYell
    }
  }

  /** Header constants the row validator and the text announcer compare against. */
  datatype Codes = Codes(
    chat: ChatCodes,
    swapInitialTargets: bv32,     // SF_GENERAL_SWAP_INITIAL_TARGETS
    swapFinalTargets: bv32,       // SF_GENERAL_SWAP_FINAL_TARGETS
    moveToCoordinatesMax: nat,    // MOVETO_COORDINATES_MAX
    goLockStateMax: nat,          // SF_GOLOCKSTATE_MAX
    maxUnitStandState: nat,       // MAX_UNIT_STAND_STATE
    instDataMax: nat,             // SO_INSTDATA_MAX
    instData64Max: nat,           // SO_INSTDATA64_MAX
    visibilityDistance: real,     // DEFAULT_VISIBILITY_DISTANCE
    interactionDistance: real)    // INTERACTION_DISTANCE
  {
    predicate Valid() {
      chat.Valid()
    }
  }
}

=== FILE: dispatcher.dfy ===
/** The `ScriptMgr::On*`, `Get*` and `CreateInstanceData` entry points the
    core calls. Each looks up the slot of the script id its subject carries,
    answers a neutral value when the slot or the hook it needs is empty, and
    otherwise invokes the hook, some of them clearing the player's menus
    first. The subjects (creatures, game objects, items, maps) appear only
    through the script ids they carry, and the hook's own arguments and
    result are opaque. */
module Dispatcher {
  import opened Defs
  import opened NameRegistry
  import opened HookTable

  /** One dispatcher call. `player` is the player whose menus the call may
      clear; `code` is the gossip code, `None` for a null pointer. */
  datatype Request =
    | CreatureAI(creatureScript: nat)
    | GameObjectAI(goScript: nat)
    | InstanceData(mapScript: nat)
    | GossipHelloCreature(player: nat, creatureScript: nat)
    | GossipHelloGameObject(player: nat, goScript: nat)
    | GossipSelectCreature(player: nat, creatureScript: nat, code: Option<string>)
    | GossipSelectGameObject(player: nat, goScript: nat, code: Option<string>)
    | QuestAcceptCreature(player: nat, creatureScript: nat)
    | QuestAcceptGameObject(player: nat, goScript: nat)
    | QuestAcceptItem(player: nat, itemScript: nat)
    | QuestRewardedCreature(player: nat, creatureScript: nat)
    | QuestRewardedGameObject(player: nat, goScript: nat)
    | DialogStatusCreature(player: nat, creatureScript: nat)
    | DialogStatusGameObject(player: nat, goScript: nat)
    | GameObjectOpen(player: nat, goScript: nat)
    | GameObjectUse(player: nat, goScript: nat)
    | ItemUse(player: nat, itemScript: nat)
    | AreaTriggerReached(player: nat, triggerId: nat)
    | ProcessEvent(eventId: nat)
    | EffectDummyCreature(creatureScript: nat)
    | EffectDummyGameObject(goScript: nat)
    | EffectDummyItem(itemScript: nat)
    | AuraDummy(creatureScript: nat)

  /** `m_AreaTriggerScripts` and `m_EventIdScripts`. */
  datatype IdMaps = IdMaps(areaTriggers: map<nat, nat>, events: map<nat, nat>)

  /** What a dispatcher answers when it does not reach a hook. */
  datatype Neutral = False | NullPointer | DialogStatusUndefined

  datatype Reply = NeutralReply(value: Neutral) | HookReply(hook: HookRef)

  /** Side effects, in order. */
  datatype Effect = ClearMenus(player: nat) | Invoke(hook: HookRef)

  datatype Outcome = Outcome(trace: seq<Effect>, reply: Reply)

  /** The slot the call looks up. */
  function SlotOf(m: IdMaps, q: Request): nat {
    match q
    case CreatureAI(s) => s
    case GameObjectAI(s) => s
    case InstanceData(s) => s
    case GossipHelloCreature(_, s) => s
    case GossipHelloGameObject(_, s) => s
    case GossipSelectCreature(_, s, _) => s
    case GossipSelectGameObject(_, s, _) => s
    case QuestAcceptCreature(_, s) => s
    case QuestAcceptGameObject(_, s) => s
    case QuestAcceptItem(_, s) => s
    case QuestRewardedCreature(_, s) => s
    case QuestRewardedGameObject(_, s) => s
    case DialogStatusCreature(_, s) => s
    case DialogStatusGameObject(_, s) => s
    case GameObjectOpen(_, s) => s
    case GameObjectUse(_, s) => s
    case ItemUse(_, s) => s
    case AreaTriggerReached(_, t) => ScriptIdFor(m.areaTriggers, t)
    case ProcessEvent(e) => ScriptIdFor(m.events, e)
    case EffectDummyCreature(s) => s
    case EffectDummyGameObject(s) => s
    case EffectDummyItem(s) => s
    case AuraDummy(s) => s
  }

  /** The hook pointer the call needs. Gossip selection picks the variant
      with a code exactly when a code is passed. */
  function HookOf(q: Request): HookKind {
    match q
    case CreatureAI(_) => GetAI
    case GameObjectAI(_) => GOGetAI
    case InstanceData(_) => GetInstanceData
    case GossipHelloCreature(_, _) => GossipHello
    case GossipHelloGameObject(_, _) => GOGossipHello
    case GossipSelectCreature(_, _, code) => if code.Some? then GossipSelectWithCode else GossipSelect
    case GossipSelectGameObject(_, _, code) => if code.Some? then GOGossipSelectWithCode else GOGossipSelect
    case QuestAcceptCreature(_, _) => QuestAcceptNPC
    case QuestAcceptGameObject(_, _) => GOQuestAccept
    case QuestAcceptItem(_, _) => ItemHello
    case QuestRewardedCreature(_, _) => QuestRewardedNPC
    case QuestRewardedGameObject(_, _) => QuestRewardedGO
    case DialogStatusCreature(_, _) => NPCDialogStatus
    case DialogStatusGameObject(_, _) => GODialogStatus
    case GameObjectOpen(_, _) => GOOpen
    case GameObjectUse(_, _) => GOHello
    case ItemUse(_, _) => HookKind.ItemUse
    case AreaTriggerReached(_, _) => AreaTrigger
    case ProcessEvent(_) => ProcessEventId
    case EffectDummyCreature(_) => HookKind.EffectDummyCreature
    case EffectDummyGameObject(_) => EffectDummyGameObj
    case EffectDummyItem(_) => HookKind.EffectDummyItem
    case AuraDummy(_) => EffectAuraDummy
  }

  /** The player whose menus the call clears before invoking its hook;
      `None` for the calls that leave menus alone. */
  function MenuOwner(q: Request): Option<nat> {
    match q
    case GossipHelloCreature(p, _) => Some(p)
    case GossipHelloGameObject(p, _) => Some(p)
    case GossipSelectCreature(p, _, _) => Some(p)
    case GossipSelectGameObject(p, _, _) => Some(p)
    case QuestAcceptCreature(p, _) => Some(p)
    case QuestAcceptGameObject(p, _) => Some(p)
    case QuestAcceptItem(p, _) => Some(p)
    case QuestRewardedCreature(p, _) => Some(p)
    case QuestRewardedGameObject(p, _) => Some(p)
    case DialogStatusCreature(p, _) => Some(p)
    case DialogStatusGameObject(p, _) => Some(p)
    case GameObjectUse(p, _) => Some(p)
    case _ => None
  }

  /** The answer when no hook is reached. */
  function NeutralOf(q: Request): Neutral {
    match q
    case CreatureAI(_) => NullPointer
    case GameObjectAI(_) => NullPointer
    case InstanceData(_) => NullPointer
    case DialogStatusCreature(_, _) => DialogStatusUndefined
    case DialogStatusGameObject(_, _) => DialogStatusUndefined
    case _ => False
  }

  /** The hook the call reaches, if the slot holds a script that sets it. */
  function Target(reg: Registry, m: IdMaps, q: Request): Option<HookRef>
    requires SlotOf(m, q) < |reg.scripts|
  {
    var slot := reg.scripts[SlotOf(m, q)];
    if slot.Some? && HookOf(q) in slot.value.hooks then Some(slot.value.hooks[HookOf(q)]) else None
  }

  /** Every dispatcher. The slot index is not range-checked by the server,
      so the call requires it to be within the table. */
  function Dispatch(reg: Registry, m: IdMaps, q: Request): (o: Outcome)
    requires SlotOf(m, q) < |reg.scripts|
    ensures o.reply.HookReply? <==> Target(reg, m, q).Some?
    ensures o.reply.HookReply? ==> o.reply.hook == Target(reg, m, q).value
    ensures o.reply.NeutralReply? ==> o.reply.value == NeutralOf(q) && o.trace == []
    ensures o.reply.HookReply? ==> |o.trace| > 0 && o.trace[|o.trace| - 1] == Invoke(o.reply.hook)
    ensures forall e | e in o.trace && e.ClearMenus? :: MenuOwner(q) == Some(e.player)
    ensures o.reply.HookReply? && MenuOwner(q).None? ==> o.trace == [Invoke(o.reply.hook)]
    ensures |o.trace| <= 2
  {
    match Target(reg, m, q)
    case None => Outcome([], NeutralReply(NeutralOf(q)))
    case Some(h) =>
      var clear := if MenuOwner(q).Some? then [ClearMenus(MenuOwner(q).value)] else [];
      Outcome(clear + [Invoke(h)], HookReply(h))
  }

  /** Menus are cleared only by the calls that own a menu, and only right
      before the hook runs; an absent slot or hook leaves them alone. */
  lemma ClearOnlyBeforeHook(reg: Registry, m: IdMaps, q: Request, p: nat)
    requires SlotOf(m, q) < |reg.scripts|
    ensures ClearMenus(p) in Dispatch(reg, m, q).trace <==>
      MenuOwner(q) == Some(p) && Target(reg, m, q).Some?
    ensures MenuOwner(q) == Some(p) && Target(reg, m, q).Some? ==>
      Dispatch(reg, m, q).trace == [ClearMenus(p), Invoke(Target(reg, m, q).value)]
  {
  }

  /** Opening a game object, using an item, reaching an area trigger,
      processing an event and the dummy effects never clear menus: their
      trace is the one hook call, or nothing when there is no hook. */
  lemma NeverClearMenus(reg: Registry, m: IdMaps, q: Request, p: nat)
    requires SlotOf(m, q) < |reg.scripts|
    requires q.GameObjectOpen? || q.ItemUse? || q.AreaTriggerReached? || q.ProcessEvent?
      || q.EffectDummyCreature? || q.EffectDummyGameObject? || q.EffectDummyItem? || q.AuraDummy?
    ensures ClearMenus(p) !in Dispatch(reg, m, q).trace
    ensures Dispatch(reg, m, q).trace == if Target(reg, m, q).Some? then [Invoke(Target(reg, m, q).value)] else []
  {
  }

  /** Gossip selection with a code never falls back to the plain hook, and
      without a code never uses the coded one. */
  lemma GossipSelectNoFallback(reg: Registry, m: IdMaps, player: nat, slot: nat, code: Option<string>)
    requires slot < |reg.scripts| && reg.scripts[slot].Some?
    ensures var q := GossipSelectCreature(player, slot, code);
      var hooks := reg.scripts[slot].value.hooks;
      && (code.Some? && GossipSelectWithCode !in hooks ==> Dispatch(reg, m, q).reply == NeutralReply(False))
      && (code.None? && GossipSelect !in hooks ==> Dispatch(reg, m, q).reply == NeutralReply(False))
  {
  }

  /** After `Initialize`, slot 0 is empty, so an area trigger or event with
      no script mapping answers false without side effects. */
  lemma UnmappedIdsAreNeutral(names: seq<string>, list: seq<Registration>, m: IdMaps, q: Request)
    requires Sorted(names) && |names| > 0
    requires (q.AreaTriggerReached? && q.triggerId !in m.areaTriggers) || (q.ProcessEvent? && q.eventId !in m.events)
    ensures var reg := Initialize(names, list).registry;
      Dispatch(reg, m, q) == Outcome([], NeutralReply(False))
  {
    RegisterAllSlots(names, list);
  }

  /** A script registered under its name is what a call for that name's
      id reaches, through every hook the script sets. */
  lemma RegisterThenDispatch(reg: Registry, names: seq<string>, s: Script, report: bool, m: IdMaps, q: Request)
    requires Sorted(names) && |reg.scripts| == |names|
    requires IdOf(names, s) != 0 && SlotOf(m, q) == IdOf(names, s)
    ensures var reg' := RegisterSelf(reg, names, s, report).0;
      Dispatch(reg', m, q).reply ==
        if HookOf(q) in s.hooks then HookReply(s.hooks[HookOf(q)]) else NeutralReply(NeutralOf(q))
  {
  }
}

=== FILE: escort_data.dfy ===
/** `LoadEscortData`: one entry per creature of `script_escort_data` that has
    a template and at least one waypoint, remembering the highest waypoint
    id as the escort's last point. A creature without a script name is only
    reported. */
module EscortData {
  import opened Defs

  datatype EscortRow = EscortRow(creatureEntry: nat, quest: nat, faction: nat)

  datatype Escort = Escort(creatureEntry: nat, quest: nat, faction: nat, lastWaypoint: nat)

  datatype EscortDiagnostic =
    | CreatureMissing(entry: nat)
    | ScriptNameMissing(entry: nat)
    | WaypointsMissing(entry: nat)

  /** The creature templates (entry to whether it has a script id) and the
      waypoint ids each creature's path lists; a creature without a path
      has no key. */
  datatype EscortSources = EscortSources(templates: map<nat, bool>, waypoints: map<nat, seq<nat>>)

  function PointsOf(s: EscortSources, entry: nat): seq<nat> {
    if entry in s.waypoints then s.waypoints[entry] else []
  }

  /** The loop that computes `uiLastWaypointEntry`, starting from 0. */
  method LastWaypoint(points: seq<nat>) returns (last: nat)
    ensures forall i | 0 <= i < |points| :: points[i] <= last
    ensures points != [] ==> last in points
    ensures points == [] ==> last == 0
  {
    last := 0;
    var i := 0;
    while i < |points|
      invariant 0 <= i <= |points|
      invariant forall j | 0 <= j < i :: points[j] <= last
      invariant i > 0 ==> last in points[..i]
      invariant i == 0 ==> last == 0
    {
      if points[i] > last {
        last := points[i];
      }
      i := i + 1;
    }
    assert points[..i] == points;
  }

  /** A row makes an entry when its creature exists and has waypoints. */
  predicate Accepted(s: EscortSources, row: EscortRow) {
    row.creatureEntry in s.templates && PointsOf(s, row.creatureEntry) != []
  }

  /** The entry `x` is the one `row` makes: its creature, quest and
      faction, and the highest waypoint id of the creature's path. */
  predicate EntryOf(s: EscortSources, row: EscortRow, x: Escort) {
    && x.creatureEntry == row.creatureEntry
    && x.quest == row.quest && x.faction == row.faction
    && (forall p | p in PointsOf(s, row.creatureEntry) :: p <= x.lastWaypoint)
    && x.lastWaypoint in PointsOf(s, row.creatureEntry)
  }

  /** The body of the loader's loop for one row: the entry it makes, if
      any, and what it reports. */
  method LoadEscortRow(s: EscortSources, row: EscortRow) returns (entry: Option<Escort>, log: seq<EscortDiagnostic>)
    ensures entry.Some? <==> Accepted(s, row)
    ensures entry.Some? ==> EntryOf(s, row, entry.value)
    ensures entry.None? ==> CreatureMissing(row.creatureEntry) in log || WaypointsMissing(row.creatureEntry) in log
    ensures ScriptNameMissing(row.creatureEntry) in log <==>
      row.creatureEntry in s.templates && !s.templates[row.creatureEntry]
  {
    var e := row.creatureEntry;
    if e !in s.templates {
      return None, [CreatureMissing(e)];
    }
    log := if !s.templates[e] then [ScriptNameMissing(e)] else [];
    var points := PointsOf(s, e);
    if points == [] {
      return None, log + [WaypointsMissing(e)];
    }
    var last := LastWaypoint(points);
    entry := Some(Escort(e, row.quest, row.faction, last));
  }

  /** How many of the first `n` rows make an entry. */
  function AcceptedCount(s: EscortSources, rows: seq<EscortRow>, n: nat): nat
    requires n <= |rows|
  {
    if n == 0 then 0
    else AcceptedCount(s, rows, n - 1) + if Accepted(s, rows[n - 1]) then 1 else 0
  }

  /** The position of the last of the first `n` rows that makes an entry
      for creature `e`. */
  function LastAccepted(s: EscortSources, rows: seq<EscortRow>, n: nat, e: nat): (r: Option<nat>)
    requires n <= |rows|
    ensures r.Some? ==> r.value < n && rows[r.value].creatureEntry == e && Accepted(s, rows[r.value])
  {
    if n == 0 then None
    else if rows[n - 1].creatureEntry == e && Accepted(s, rows[n - 1]) then Some(n - 1)
    else LastAccepted(s, rows, n - 1, e)
  }

  /** `LastAccepted` finds the last accepted row of the creature, and finds
      none exactly when there is none. */
  lemma {:induction false} LastAcceptedIsLast(s: EscortSources, rows: seq<EscortRow>, n: nat, e: nat)
    requires n <= |rows|
    ensures LastAccepted(s, rows, n, e).None? <==>
      forall j | 0 <= j < n :: !(rows[j].creatureEntry == e && Accepted(s, rows[j]))
    ensures LastAccepted(s, rows, n, e).Some? ==>
      var j := LastAccepted(s, rows, n, e).value;
      && j < n && rows[j].creatureEntry == e && Accepted(s, rows[j])
      && forall j' | j < j' < n :: !(rows[j'].creatureEntry == e && Accepted(s, rows[j']))
  {
    if n > 0 {
      LastAcceptedIsLast(s, rows, n - 1, e);
    }
  }

  /** The loader. Later rows for the same creature replace earlier ones;
      `count` counts every row that made an entry. */
  method LoadEscortData(s: EscortSources, rows: seq<EscortRow>)
    returns (escorts: map<nat, Escort>, count: nat, log: seq<EscortDiagnostic>)
    ensures forall e :: e in escorts <==> LastAccepted(s, rows, |rows|, e).Some?
    ensures forall e | e in escorts :: EntryOf(s, rows[LastAccepted(s, rows, |rows|, e).value], escorts[e])
    ensures count == AcceptedCount(s, rows, |rows|)
    ensures forall j | 0 <= j < |rows| && !Accepted(s, rows[j]) ::
      CreatureMissing(rows[j].creatureEntry) in log || WaypointsMissing(rows[j].creatureEntry) in log
  {
    escorts, count, log := map[], 0, [];
    var i := 0;
    while i < |rows|
      invariant 0 <= i <= |rows| && count == AcceptedCount(s, rows, i)
      invariant forall e :: e in escorts <==> LastAccepted(s, rows, i, e).Some?
      invariant forall e | e in escorts :: EntryOf(s, rows[LastAccepted(s, rows, i, e).value], escorts[e])
      invariant forall j | 0 <= j < i && !Accepted(s, rows[j]) ::
        CreatureMissing(rows[j].creatureEntry) in log || WaypointsMissing(rows[j].creatureEntry) in log
    {
      var entry, diags := LoadEscortRow(s, rows[i]);
      log := log + diags;
      if entry.Some? {
        escorts := escorts[rows[i].creatureEntry := entry.value];
        count := count + 1;
      }
      i := i + 1;
    }
  }

  /** Each escort comes from the last row of its creature that has a
      template and waypoints; a creature appears iff it has such a row. */
  lemma LoadedEscortsAreLastRows(s: EscortSources, rows: seq<EscortRow>, e: nat)
    ensures LastAccepted(s, rows, |rows|, e).Some? <==>
      exists j | 0 <= j < |rows| :: rows[j].creatureEntry == e && Accepted(s, rows[j])
    ensures LastAccepted(s, rows, |rows|, e).Some? ==>
      forall j' | LastAccepted(s, rows, |rows|, e).value < j' < |rows| ::
        !(rows[j'].creatureEntry == e && Accepted(s, rows[j']))
  {
    LastAcceptedIsLast(s, rows, |rows|, e);
  }
}

=== FILE: hook_table.dfy ===
/** The table of compiled scripts: `m_scripts` has one slot per registered
    script name, and each script bundles optional hooks. `Script::RegisterSelf`
    puts a script into the slot of its name, and `ScriptMgr::Initialize`
    sizes the table, runs every registration and reports the names that no
    script claimed. */
module HookTable {
  import opened Defs
  import opened NameRegistry

  /** The hook pointers a `Script` may set. */
  datatype HookKind =
    | GetAI | GOGetAI | GetInstanceData
    | GossipHello | GOGossipHello
    | GossipSelect | GOGossipSelect | GossipSelectWithCode | GOGossipSelectWithCode
    | QuestAcceptNPC | GOQuestAccept | ItemHello
    | QuestRewardedNPC | QuestRewardedGO
    | NPCDialogStatus | GODialogStatus
    | GOOpen | GOHello | ItemUse
    | AreaTrigger | ProcessEventId
    | EffectDummyCreature | EffectDummyGameObj | EffectDummyItem | EffectAuraDummy

  /** An opaque callback: the model never looks inside a hook. */
  datatype HookRef = HookRef(id: nat)

  /** A compiled script: its name and the hooks it sets; a kind missing
      from `hooks` is a null pointer. */
  datatype Script = Script(name: string, hooks: map<HookKind, HookRef>)

  /** `m_scripts` together with `num_sc_scripts`. */
  datatype Registry = Registry(scripts: seq<Option<Script>>, count: nat)

  /** One `RegisterSelf(bReportError)` call of `AddScripts`. */
  datatype Registration = Registration(script: Script, reportError: bool)

  /** `strstr(s, part) != nullptr`. */
  predicate Contains(s: string, part: string) {
    exists i | 0 <= i <= |s| :: part <= s[i..]
  }

  /** Unused generic scripts are not worth an error. */
  predicate QuietName(name: string) {
    Contains(name, "generic") || Contains(name, "npc_escort")
  }

  /** `m_scripts.resize(GetScriptIdsCount(), nullptr)` on the empty table. */
  function Empty(size: nat): (r: Registry)
    ensures |r.scripts| == size && r.count == 0
    ensures forall i | 0 <= i < size :: r.scripts[i].None?
  {
    Registry(seq(size, _ => None), 0)
  }

  /** The id a script registers under. */
  function IdOf(names: seq<string>, s: Script): nat
    requires Sorted(names)
  {
    GetScriptId(names, Some(s.name))
  }

  /** `Script::RegisterSelf`: a script whose name has a non-zero id takes
      that slot, replacing any earlier script there, and is counted; a
      script whose name is not registered changes nothing and is reported
      unless reporting is off or its name is a quiet one. */
  function RegisterSelf(reg: Registry, names: seq<string>, s: Script, reportError: bool)
    : (r: (Registry, bool))
    requires Sorted(names) && |reg.scripts| == |names|
    ensures |r.0.scripts| == |names|
    ensures IdOf(names, s) != 0 ==>
      && r.0.scripts[IdOf(names, s)] == Some(s)
      && r.0.count == reg.count + 1
      && (forall i | 0 <= i < |names| && i != IdOf(names, s) :: r.0.scripts[i] == reg.scripts[i])
    ensures IdOf(names, s) == 0 ==> r.0 == reg
    ensures r.1 <==> IdOf(names, s) == 0 && reportError && !QuietName(s.name)
  {
    var id := IdOf(names, s);
    if id != 0 then
      (Registry(reg.scripts[id := Some(s)], reg.count + 1), false)
    else
      (reg, reportError && !QuietName(s.name))
  }

  /** The registration logs the unassigned-name error. */
  predicate Reports(names: seq<string>, x: Registration)
    requires Sorted(names)
  {
    IdOf(names, x.script) == 0 && x.reportError && !QuietName(x.script.name)
  }

  /** `AddScripts()`: the registrations in order, with the names reported
      as unassigned. */
  function RegisterAll(reg: Registry, names: seq<string>, list: seq<Registration>)
    : (r: (Registry, seq<string>))
    requires Sorted(names) && |reg.scripts| == |names|
    ensures |r.0.scripts| == |names|
    decreases |list|
  {
    if list == [] then (reg, [])
    else
      var prev := RegisterAll(reg, names, list[..|list| - 1]);
      var last := list[|list| - 1];
      var step := RegisterSelf(prev.0, names, last.script, last.reportError);
      (step.0, prev.1 + if step.1 then [last.script.name] else [])
  }

  /** The script registered last for slot `id`, if any. */
  function LastFor(names: seq<string>, list: seq<Registration>, id: nat): Option<Script>
    requires Sorted(names)
    decreases |list|
  {
    if list == [] then None
    else if IdOf(names, list[|list| - 1].script) == id then Some(list[|list| - 1].script)
    else LastFor(names, list[..|list| - 1], id)
  }

  /** How many registrations find their name. */
  function Assigned(names: seq<string>, list: seq<Registration>): nat
    requires Sorted(names)
    decreases |list|
  {
    if list == [] then 0
    else Assigned(names, list[..|list| - 1]) + if IdOf(names, list[|list| - 1].script) != 0 then 1 else 0
  }

  /** At most one slot assignment per registration. */
  lemma {:induction false} AssignedAtMost(names: seq<string>, list: seq<Registration>)
    requires Sorted(names)
    ensures Assigned(names, list) <= |list|
    decreases |list|
  {
    if list != [] {
      AssignedAtMost(names, list[..|list| - 1]);
    }
  }

  /** Last registration wins: after registering into an empty table, each
      slot above 0 holds the last script registered for it, slot 0 stays
      empty, and the counter is the number of scripts that found a slot. */
  lemma {:induction false} RegisterAllSlots(names: seq<string>, list: seq<Registration>)
    requires Sorted(names)
    ensures var r := RegisterAll(Empty(|names|), names, list).0;
      && r.count == Assigned(names, list)
      && (|names| > 0 ==> r.scripts[0].None?)
      && forall i | 0 < i < |names| :: r.scripts[i] == LastFor(names, list, i)
    decreases |list|
  {
    if list != [] {
      RegisterAllSlots(names, list[..|list| - 1]);
    }
  }

  /** The error log of registration names exactly the scripts whose name
      has no id, asked to report, and not quiet. */
  lemma {:induction false} RegisterAllReports(names: seq<string>, reg: Registry, list: seq<Registration>)
    requires Sorted(names) && |reg.scripts| == |names|
    ensures forall n :: n in RegisterAll(reg, names, list).1 <==>
      exists j | 0 <= j < |list| :: list[j].script.name == n && Reports(names, list[j])
    decreases |list|
  {
    if list != [] {
      var init := list[..|list| - 1];
      RegisterAllReports(names, reg, init);
      forall n
        ensures n in RegisterAll(reg, names, list).1 <==>
          exists j | 0 <= j < |list| :: list[j].script.name == n && Reports(names, list[j])
      {
        if exists j | 0 <= j < |list| :: list[j].script.name == n && Reports(names, list[j]) {
          var j :| 0 <= j < |list| && list[j].script.name == n && Reports(names, list[j]);
          if j < |init| {
            assert init[j] == list[j];
          }
        }
        if n in RegisterAll(reg, names, init).1 {
          var j :| 0 <= j < |init| && init[j].script.name == n && Reports(names, init[j]);
          assert list[j] == init[j];
        }
      }
    }
  }

  /** The check loop of `Initialize`: the ids from 1 up whose slot is empty,
      in increasing order. */
  function MissingFrom(reg: Registry, from: nat): (r: seq<nat>)
    requires from <= |reg.scripts|
    ensures forall i :: i in r <==> from <= i < |reg.scripts| && reg.scripts[i].None?
    ensures forall a, b | 0 <= a < b < |r| :: r[a] < r[b]
    decreases |reg.scripts| - from
  {
    if from == |reg.scripts| then []
    else
      var rest := MissingFrom(reg, from + 1);
      assert forall b | 0 <= b < |rest| :: rest[b] in rest;
      if reg.scripts[from].None? then [from] + rest else rest
  }

  function MissingScripts(reg: Registry): (r: seq<nat>)
    ensures forall i :: i in r <==> 1 <= i < |reg.scripts| && reg.scripts[i].None?
    ensures forall a, b | 0 <= a < b < |r| :: r[a] < r[b]
  {
    if |reg.scripts| == 0 then [] else MissingFrom(reg, 1)
  }

  /** What `Initialize` leaves: the table, the unassigned names it
      reported, and the script names no script claimed. */
  datatype Init = Init(registry: Registry, unassigned: seq<string>, missing: seq<nat>)

  /** `ScriptMgr::Initialize` after the database has been loaded: size the
      table to the name registry, register every script, then report the
      empty slots. */
  function Initialize(names: seq<string>, list: seq<Registration>): (r: Init)
    requires Sorted(names)
    ensures |r.registry.scripts| == |names|
    ensures r.registry.count <= |list|
    ensures forall i :: i in r.missing <==> 1 <= i < |names| && r.registry.scripts[i].None?
    ensures forall a, b | 0 <= a < b < |r.missing| :: r.missing[a] < r.missing[b]
  {
    RegisterAllSlots(names, list);
    AssignedAtMost(names, list);
    var reg := RegisterAll(Empty(|names|), names, list);
    Init(reg.0, reg.1, MissingScripts(reg.0))
  }

  /** `Initialize` reports a script name exactly when no registration
      resolved to it. */
  lemma InitializeReportsUnclaimed(names: seq<string>, list: seq<Registration>, i: nat)
    requires Sorted(names)
    ensures i in Initialize(names, list).missing <==> 1 <= i < |names| && LastFor(names, list, i).None?
  {
    RegisterAllSlots(names, list);
  }

  /** A slot that `Initialize` fills holds a script registered under that name. */
  lemma InitializeSlotNames(names: seq<string>, list: seq<Registration>, i: nat)
    requires Sorted(names) && i < |names|
    requires Initialize(names, list).registry.scripts[i].Some?
    ensures 0 < i && Initialize(names, list).registry.scripts[i].value.name == names[i]
  {
    RegisterAllSlots(names, list);
    LastForResolves(names, list, i);
  }

  lemma {:induction false} LastForResolves(names: seq<string>, list: seq<Registration>, id: nat)
    requires Sorted(names) && id != 0
    ensures LastFor(names, list, id).Some? ==>
      IdOf(names, LastFor(names, list, id).value) == id && id < |names|
      && names[id] == LastFor(names, list, id).value.name
    decreases |list|
  {
    if list != [] {
      LastForResolves(names, list[..|list| - 1], id);
    }
  }

  /** `GetAreaTriggerScriptId` / `GetEventIdScriptId`: the script id mapped
      to `key`, or 0 when there is none. */
  function ScriptIdFor(m: map<nat, nat>, key: nat): (r: nat)
    ensures key in m ==> r == m[key]
    ensures key !in m ==> r == 0
  {
    if key in m then m[key] else 0
  }
}

=== FILE: name_registry.dfy ===
/** The script name registry: `LoadScriptNames` collects the distinct script
    names of the world database behind an empty name and sorts them, and
    `GetScriptId` maps a name to its position by binary search, with 0
    standing for "no script". Names are compared as `std::string` does,
    lexicographically by character. */
module NameRegistry {
  import opened Defs

  /** `a < b` on strings: lexicographic, a proper prefix sorts first. */
  predicate Less(a: string, b: string)
    decreases |a|
  {
    if a == [] then b != []
    else if b == [] then false
    else if a[0] != b[0] then a[0] < b[0]
    else Less(a[1..], b[1..])
  }

  predicate Le(a: string, b: string) {
    a == b || Less(a, b)
  }

  lemma {:induction false} LessIrreflexive(a: string)
    ensures !Less(a, a)
    decreases |a|
  {
    if a != [] {
      LessIrreflexive(a[1..]);
    }
  }

  lemma {:induction false} LessAsymmetric(a: string, b: string)
    requires Less(a, b)
    ensures !Less(b, a)
    decreases |a|
  {
    if a != [] && b != [] && a[0] == b[0] {
      LessAsymmetric(a[1..], b[1..]);
    }
  }

  lemma {:induction false} LessTransitive(a: string, b: string, c: string)
    requires Less(a, b) && Less(b, c)
    ensures Less(a, c)
    decreases |a|
  {
    if a != [] && a[0] == b[0] && b[0] == c[0] {
      LessTransitive(a[1..], b[1..], c[1..]);
    }
  }

  lemma {:induction false} LessTotal(a: string, b: string)
    requires a != b
    ensures Less(a, b) || Less(b, a)
    decreases |a|
  {
    if a != [] && b != [] && a[0] == b[0] {
      assert a == [a[0]] + a[1..] && b == [b[0]] + b[1..];
      LessTotal(a[1..], b[1..]);
    }
  }


  lemma LeLessTransitive(a: string, b: string, c: string)
    requires Le(a, b) && Less(b, c)
    ensures Less(a, c)
  {
    if a != b {
      LessTransitive(a, b, c);
    }
  }

  lemma NotLessLeTransitive(a: string, b: string, c: string)
    requires !Less(b, a) && Le(b, c)
    ensures !Less(c, a)
  {
    if Less(c, a) {
      if b == c {
      } else {
        LessTransitive(b, c, a);
      }
    }
  }

  predicate Sorted(s: seq<string>) {
    forall i, j | 0 <= i < j < |s| :: Le(s[i], s[j])
  }

  predicate StrictlySorted(s: seq<string>) {
    forall i, j | 0 <= i < j < |s| :: Less(s[i], s[j])
  }

  predicate Distinct(s: seq<string>) {
    forall i, j | 0 <= i < j < |s| :: s[i] != s[j]
  }

  lemma SortedTail(s: seq<string>)
    requires Sorted(s) && s != []
    ensures Sorted(s[1..])
    ensures forall y | y in s[1..] :: Le(s[0], y)
  {
    forall i, j | 0 <= i < j < |s| - 1 ensures Le(s[1..][i], s[1..][j]) {
      assert s[1..][i] == s[i + 1] && s[1..][j] == s[j + 1];
    }
  }

  lemma SortedCons(h: string, s: seq<string>)
    requires Sorted(s)
    requires forall y | y in s :: Le(h, y)
    ensures Sorted([h] + s)
  {
    var r := [h] + s;
    forall i, j | 0 <= i < j < |r| ensures Le(r[i], r[j]) {
      assert r[j] == s[j - 1];
      if i > 0 {
        assert r[i] == s[i - 1];
      }
    }
  }

  /** A name that does not sort after the head of a sorted vector does not
      sort after any of its names. */
  lemma BelowHead(x: string, s: seq<string>)
    requires Sorted(s) && s != [] && Le(x, s[0])
    ensures forall y | y in s :: Le(x, y)
  {
    forall y | y in s ensures Le(x, y) {
      var j :| 0 <= j < |s| && s[j] == y;
      if j > 0 && s[0] != y {
        LeLessTransitive(x, s[0], y);
      }
    }
  }

  /** Insertion of one name into a sorted vector. */
  function Insert(s: seq<string>, x: string): (r: seq<string>)
    requires Sorted(s)
    ensures Sorted(r)
    ensures multiset(r) == multiset(s) + multiset{x}
    ensures |r| == |s| + 1
    decreases |s|
  {
    if s == [] then [x]
    else if Le(x, s[0]) then
      BelowHead(x, s);
      SortedCons(x, s);
      [x] + s
    else
      SortedTail(s);
      var rest := Insert(s[1..], x);
      assert s == [s[0]] + s[1..];
      LessTotal(x, s[0]);
      assert forall y | y in rest :: Le(s[0], y) by {
        forall y | y in rest ensures Le(s[0], y) {
          assert y in multiset(rest);
        }
      }
      SortedCons(s[0], rest);
      [s[0]] + rest
  }

  /** The sorted permutation that `std::sort` produces. */
  function SortNames(s: seq<string>): (r: seq<string>)
    ensures Sorted(r)
    ensures multiset(r) == multiset(s)
    ensures |r| == |s|
    decreases |s|
  {
    if s == [] then []
    else
      assert s == [s[0]] + s[1..];
      Insert(SortNames(s[1..]), s[0])
  }

  /** `LoadScriptNames`: the empty name followed by the database's names,
      sorted. An empty query result leaves just the empty name, which is
      the same vector. */
  function BuildNames(db: seq<string>): (names: seq<string>)
    ensures Sorted(names)
    ensures multiset(names) == multiset([""] + db)
    ensures |names| == |db| + 1
    ensures names[0] == ""
  {
    var names := SortNames([""] + db);
    assert "" in multiset(names) by {
      assert ([""] + db)[0] == "";
    }
    assert names[0] == "" by {
      var i :| 0 <= i < |names| && names[i] == "";
      if i > 0 {
        assert Le(names[0], names[i]);
      }
    }
    names
  }

  lemma DistinctCounts(s: seq<string>, x: string)
    requires Distinct(s)
    ensures multiset(s)[x] <= 1
    decreases |s|
  {
    if s != [] {
      assert s == [s[0]] + s[1..];
      assert Distinct(s[1..]) by {
        forall i, j | 0 <= i < j < |s| - 1 ensures s[1..][i] != s[1..][j] {
          assert s[1..][i] == s[i + 1] && s[1..][j] == s[j + 1];
        }
      }
      DistinctCounts(s[1..], x);
    }
  }

  lemma RepeatCounts(s: seq<string>, i: nat, j: nat)
    requires i < j < |s| && s[i] == s[j]
    ensures multiset(s)[s[i]] >= 2
  {
    assert s == s[..j] + [s[j]] + s[j + 1..];
    assert s[..j][i] == s[i];
    assert s[i] in multiset(s[..j]);
  }

  /** The database yields distinct non-empty names, so the registry has no
      duplicate and every script name gets its own position. */
  lemma BuildNamesStrictlySorted(db: seq<string>)
    requires Distinct(db)
    requires forall i | 0 <= i < |db| :: db[i] != ""
    ensures StrictlySorted(BuildNames(db))
  {
    var names := BuildNames(db);
    var all := [""] + db;
    assert Distinct(all) by {
      forall i, j | 0 <= i < j < |all| ensures all[i] != all[j] {
        if i > 0 {
          assert all[i] == db[i - 1];
        }
        assert all[j] == db[j - 1];
      }
    }
    forall i, j | 0 <= i < j < |names| ensures Less(names[i], names[j]) {
      if names[i] == names[j] {
        RepeatCounts(names, i, j);
        DistinctCounts(all, names[i]);
      }
    }
  }

  /** `std::lower_bound` over `names[first..first + count]`: the step that
      halves the remaining range, repeated until it is empty. */
  function LowerBoundFrom(names: seq<string>, name: string, first: nat, count: nat): (p: nat)
    requires Sorted(names) && first + count <= |names|
    requires forall i | 0 <= i < first :: Less(names[i], name)
    requires forall i | first + count <= i < |names| :: !Less(names[i], name)
    ensures first <= p <= first + count
    ensures forall i | 0 <= i < p :: Less(names[i], name)
    ensures forall i | p <= i < |names| :: !Less(names[i], name)
    decreases count
  {
    if count == 0 then first
    else
      var step := count / 2;
      var it := first + step;
      if Less(names[it], name) then
        assert forall i | 0 <= i <= it :: Less(names[i], name) by {
          forall i | 0 <= i <= it ensures Less(names[i], name) {
            if i < it { LeLessTransitive(names[i], names[it], name); }
          }
        }
        LowerBoundFrom(names, name, it + 1, count - step - 1)
      else
        assert forall i | it <= i < |names| :: !Less(names[i], name) by {
          forall i | it <= i < |names| ensures !Less(names[i], name) {
            if it < i { NotLessLeTransitive(name, names[it], names[i]); }
          }
        }
        LowerBoundFrom(names, name, first, step)
  }

  /** `std::lower_bound(names.begin(), names.end(), name)`: the first
      position whose name does not sort before `name`. */
  function LowerBound(names: seq<string>, name: string): (p: nat)
    requires Sorted(names)
    ensures p <= |names|
    ensures forall i | 0 <= i < p :: Less(names[i], name)
    ensures forall i | p <= i < |names| :: !Less(names[i], name)
  {
    LowerBoundFrom(names, name, 0, |names|)
  }

  /** `GetScriptId`: a null name and a name that is not registered give 0;
      otherwise the position of the name's first occurrence. Because the
      empty name sits at 0, the result 0 is ambiguous only for "". */
  function GetScriptId(names: seq<string>, name: Option<string>): (r: nat)
    requires Sorted(names)
    ensures name.None? ==> r == 0
    ensures r != 0 ==> r < |names| && name.Some? && names[r] == name.value
    ensures r != 0 ==> name.value !in names[..r]
    ensures name.Some? ==> (r != 0 <==> name.value in names && names[0] != name.value)
  {
    match name
    case None => 0
    case Some(n) =>
      var p := LowerBound(names, n);
      assert n !in names[..p] by {
        forall i | 0 <= i < p ensures names[..p][i] != n {
          LessIrreflexive(n);
        }
      }
      assert n in names ==> p < |names| && names[p] == n by {
        if n in names {
          var j :| 0 <= j < |names| && names[j] == n;
          LessIrreflexive(n);
          assert p <= j;
          if p < j {
            assert Le(names[p], names[j]);
          }
        }
      }
      if p == |names| || names[p] != n then 0 else p
  }

  /** In a registry without duplicates every name at a position i > 0 is
      found at exactly i. */
  lemma FoundAtItsPosition(names: seq<string>, i: nat)
    requires StrictlySorted(names)
    requires 0 < i < |names|
    ensures Sorted(names)
    ensures GetScriptId(names, Some(names[i])) == i
  {
    var n := names[i];
    assert Less(names[0], n);
    LessIrreflexive(n);
  }

  /** The empty name is registered at 0, which reads as "no script". */
  lemma EmptyNameHasNoScript(names: seq<string>)
    requires Sorted(names) && |names| > 0 && names[0] == ""
    ensures GetScriptId(names, Some("")) == 0
  {
  }

  /** Every name loaded from the database resolves to a non-zero id that
      designates it. */
  lemma LoadedNamesResolve(db: seq<string>, j: nat)
    requires Distinct(db)
    requires forall i | 0 <= i < |db| :: db[i] != ""
    requires j < |db|
    ensures var r := GetScriptId(BuildNames(db), Some(db[j]));
      r != 0 && BuildNames(db)[r] == db[j]
  {
    var names := BuildNames(db);
    assert db[j] in multiset([""] + db) by {
      assert ([""] + db)[j + 1] == db[j];
    }
    assert db[j] in names;
  }
}

=== FILE: script_loader.dfy ===
/** `ScriptMgr::LoadScripts`: unless a timed script is in flight, clear the
    target table and rebuild it from the rows that pass validation, counting
    them. Rows are validated one after the other against the catalogs as the
    previous rows left them (QUEST_EXPLORED rows may flag their quest). */
module ScriptLoader {
  import opened Defs
  import opened ScriptTypes
  import opened ScriptValidator
  import opened ScriptTable

  /** One line of the loader's error log. */
  datatype Diagnostic =
    | Warned(scriptId: nat, warning: Warning)
    | Dropped(scriptId: nat, reason: Reason)

  /** The rows the loader keeps, in load order. */
  function AcceptedRows(c: Catalogs, k: Codes, rows: seq<ScriptRow>): (r: seq<ScriptRow>)
    ensures forall x | x in r :: x in rows && RowValid(c, k, x)
    ensures forall i | 0 <= i < |rows| && RowValid(c, k, rows[i]) :: rows[i] in r
    decreases |rows|
  {
    if rows == [] then []
    else
      var last := rows[|rows| - 1];
      AcceptedRows(c, k, rows[..|rows| - 1]) + (if RowValid(c, k, last) then [last] else [])
  }

  /** Quests whose exploration flag some row of `rows` switches on. */
  function FlaggedQuests(c: Catalogs, k: Codes, rows: seq<ScriptRow>): set<nat>
    decreases |rows|
  {
    if rows == [] then {}
    else
      var d := ValidateRow(c, k, rows[|rows| - 1]);
      FlaggedQuests(c, k, rows[..|rows| - 1]) + if d.flagged.Some? then {d.flagged.value} else {}
  }

  /** `c` with the exploration flag set on every quest of `qs`. */
  function MarkExplored(c: Catalogs, qs: set<nat>): (r: Catalogs)
    ensures c.SameContent(r)
    ensures forall q | q in c.quests :: r.quests[q] == (c.quests[q] || q in qs)
  {
    c.(quests := map q | q in c.quests :: c.quests[q] || q in qs)
  }

  function RowLog(id: nat, d: Decision): seq<Diagnostic> {
    seq(|d.warnings|, j requires 0 <= j < |d.warnings| => Warned(id, d.warnings[j]))
      + (if d.verdict.Drop? then [Dropped(id, d.verdict.reason)] else [])
  }

  /** Validation only reads the quests' exploration flags to decide whether
      to flag them, so a row's verdict does not depend on them. */
  lemma VerdictIgnoresQuestFlags(c: Catalogs, c': Catalogs, k: Codes, row: ScriptRow)
    requires c.SameContent(c')
    ensures ValidateRow(c', k, row).verdict == ValidateRow(c, k, row).verdict
  {
    assert c'.(quests := c.quests) == c;
    assert CheckBuddy(c', row) == CheckBuddy(c, row);
    assert CheckCommand(c', k, row.command, row.coordsValid).verdict
      == CheckCommand(c, k, row.command, row.coordsValid).verdict;
  }

  /** Once the quests of `qs` are marked explored, a row flags its quest
      exactly when it did before and the quest is not among them. */
  lemma FlaggedAfterMarking(c: Catalogs, qs: set<nat>, k: Codes, row: ScriptRow)
    ensures var d0 := ValidateRow(c, k, row);
      ValidateRow(MarkExplored(c, qs), k, row).flagged
        == if d0.flagged.Some? && d0.flagged.value !in qs then d0.flagged else None
  {
    var cur := MarkExplored(c, qs);
    assert BuddyResolves(cur, row) == BuddyResolves(c, row);
  }

  /** Marking one more quest is setting its exploration flag. */
  lemma MarkExploredInsert(c: Catalogs, qs: set<nat>, q: nat)
    requires q in c.quests
    ensures MarkExplored(c, qs + {q}) == MarkExplored(c, qs).WithExplorationFlag(q)
  {
    var a, b := MarkExplored(c, qs + {q}), MarkExplored(c, qs).WithExplorationFlag(q);
    assert a.quests == b.quests;
  }

  /** Flagging during the load matches flagging against the initial catalogs. */
  lemma MarkExploredStep(c: Catalogs, k: Codes, rows: seq<ScriptRow>, i: nat)
    requires i < |rows|
    ensures var cur := MarkExplored(c, FlaggedQuests(c, k, rows[..i]));
      var d := ValidateRow(cur, k, rows[i]);
      MarkExplored(c, FlaggedQuests(c, k, rows[..i + 1]))
        == (if d.flagged.Some? then cur.WithExplorationFlag(d.flagged.value) else cur)
  {
    var f := FlaggedQuests(c, k, rows[..i]);
    var row := rows[i];
    var flag0 := ValidateRow(c, k, row).flagged;
    assert flag0.Some? ==> flag0.value in c.quests;
    assert FlaggedQuests(c, k, rows[..i + 1]) == f + (if flag0.Some? then {flag0.value} else {}) by {
      assert rows[..i + 1][..i] == rows[..i];
    }
    FlaggedAfterMarking(c, f, k, row);
    if flag0.Some? {
      MarkExploredInsert(c, f, flag0.value);
      if flag0.value in f {
        assert f + {flag0.value} == f;
      }
    } else {
      assert f + {} == f;
    }
  }

  lemma AcceptedSnoc(c: Catalogs, k: Codes, rows: seq<ScriptRow>, i: nat)
    requires i < |rows|
    ensures AcceptedRows(c, k, rows[..i + 1])
      == AcceptedRows(c, k, rows[..i]) + if RowValid(c, k, rows[i]) then [rows[i]] else []
  {
    assert rows[..i + 1][..i] == rows[..i];
  }

  lemma GroupStep(c: Catalogs, k: Codes, rows: seq<ScriptRow>, i: nat)
    requires i < |rows|
    ensures Group(AcceptedRows(c, k, rows[..i + 1]))
      == if RowValid(c, k, rows[i]) then AddRow(Group(AcceptedRows(c, k, rows[..i])), rows[i])
         else Group(AcceptedRows(c, k, rows[..i]))
  {
    AcceptedSnoc(c, k, rows, i);
    var acc := AcceptedRows(c, k, rows[..i]);
    if RowValid(c, k, rows[i]) {
      GroupSnoc(acc, rows[i]);
      assert AcceptedRows(c, k, rows[..i + 1]) == acc + [rows[i]];
    } else {
      assert AcceptedRows(c, k, rows[..i + 1]) == acc;
    }
  }

  /** One iteration of the load loop, stated against the initial catalogs. */
  lemma LoadStep(c: Catalogs, k: Codes, rows: seq<ScriptRow>, i: nat, d: Decision)
    requires i < |rows|
    requires d == ValidateRow(MarkExplored(c, FlaggedQuests(c, k, rows[..i])), k, rows[i])
    ensures d.verdict == ValidateRow(c, k, rows[i]).verdict
    ensures Group(AcceptedRows(c, k, rows[..i + 1]))
      == if d.verdict.Keep? then AddRow(Group(AcceptedRows(c, k, rows[..i])), rows[i])
         else Group(AcceptedRows(c, k, rows[..i]))
    ensures |AcceptedRows(c, k, rows[..i + 1])|
      == |AcceptedRows(c, k, rows[..i])| + if d.verdict.Keep? then 1 else 0
    ensures MarkExplored(c, FlaggedQuests(c, k, rows[..i + 1]))
      == if d.flagged.Some? then MarkExplored(c, FlaggedQuests(c, k, rows[..i])).WithExplorationFlag(d.flagged.value)
         else MarkExplored(c, FlaggedQuests(c, k, rows[..i]))
  {
    var cur := MarkExplored(c, FlaggedQuests(c, k, rows[..i]));
    VerdictIgnoresQuestFlags(c, cur, k, rows[i]);
    MarkExploredStep(c, k, rows, i);
    AcceptedSnoc(c, k, rows, i);
    GroupStep(c, k, rows, i);
    assert RowValid(c, k, rows[i]) <==> d.verdict.Keep?;
  }

  /** What the loader holds after some rows: the table, the count of rows
      kept, the catalogs as flagging left them, and the error log. */
  datatype LoadState = LoadState(table: Table, count: nat, after: Catalogs, log: seq<Diagnostic>)

  /** One pass of the loader's loop body over `row`. */
  function LoadRow(s: LoadState, k: Codes, row: ScriptRow): (r: LoadState)
  {
    var d := ValidateRow(s.after, k, row);
    LoadState(
      if d.verdict.Keep? then AddRow(s.table, row) else s.table,
      if d.verdict.Keep? then s.count + 1 else s.count,
      if d.flagged.Some? then s.after.WithExplorationFlag(d.flagged.value) else s.after,
      s.log + RowLog(row.id, d))
  }

  /** The loader's state after loading `rows` into an empty table, one row at a time. */
  function LoadAll(c: Catalogs, k: Codes, rows: seq<ScriptRow>): (r: LoadState)
    decreases |rows|
  {
    if rows == [] then LoadState(map[], 0, c, [])
    else LoadRow(LoadAll(c, k, rows[..|rows| - 1]), k, rows[|rows| - 1])
  }

  /** Loading row by row, each against the catalogs as earlier rows left
      them, yields the kept rows grouped by id, their number, and the
      catalogs with every quest that some row flags marked explored. */
  lemma {:induction false} LoadAllMatchesReference(c: Catalogs, k: Codes, rows: seq<ScriptRow>)
    ensures LoadAll(c, k, rows).table == Group(AcceptedRows(c, k, rows))
    ensures LoadAll(c, k, rows).count == |AcceptedRows(c, k, rows)|
    ensures LoadAll(c, k, rows).after == MarkExplored(c, FlaggedQuests(c, k, rows))
    decreases |rows|
  {
    if rows == [] {
      assert MarkExplored(c, {}) == c;
    } else {
      var i := |rows| - 1;
      var init := rows[..i];
      LoadAllMatchesReference(c, k, init);
      var s := LoadAll(c, k, init);
      var d := ValidateRow(s.after, k, rows[i]);
      LoadStep(c, k, rows, i, d);
      assert rows[..i + 1] == rows;
    }
  }

  /** The loader. `scheduled` is `IsScriptScheduled()`; `prior` is the table
      before the call. Returns the table, the number of rows loaded, the
      catalogs after quest flagging, and the error log. */
  method LoadScripts(scheduled: bool, prior: Table, rows: seq<ScriptRow>, c: Catalogs, k: Codes)
    returns (table: Table, count: nat, after: Catalogs, log: seq<Diagnostic>)
    ensures scheduled ==> table == prior && count == 0 && after == c && log == []
    ensures !scheduled ==> table == Group(AcceptedRows(c, k, rows)) && GroupsSorted(table)
    ensures !scheduled ==> count == |AcceptedRows(c, k, rows)|
    ensures !scheduled ==> after == MarkExplored(c, FlaggedQuests(c, k, rows))
    ensures !scheduled ==> log == LoadAll(c, k, rows).log
  {
    if scheduled {
      return prior, 0, c, [];
    }
    table, count, after, log := map[], 0, c, [];
    var i := 0;
    while i < |rows|
      invariant 0 <= i <= |rows|
      invariant LoadState(table, count, after, log) == LoadAll(c, k, rows[..i])
    {
      assert rows[..i + 1][..i] == rows[..i];
      ghost var next := LoadRow(LoadState(table, count, after, log), k, rows[i]);
      assert LoadAll(c, k, rows[..i + 1]) == next;
      var row := rows[i];
      var d := ValidateRow(after, k, row);
      if d.flagged.Some? {
        after := after.WithExplorationFlag(d.flagged.value);
      }
      log := log + RowLog(row.id, d);
      if d.verdict.Keep? {
        table := AddRow(table, row);
        count := count + 1;
      }
      i := i + 1;
    }
    assert rows[..i] == rows;
    LoadAllMatchesReference(c, k, rows);
    GroupSorted(AcceptedRows(c, k, rows));
  }

  /** The rebuilt table has a group for exactly the script ids that have a kept row. */
  lemma {:induction false} LoadedTableKeys(c: Catalogs, k: Codes, rows: seq<ScriptRow>)
    ensures forall id :: id in Group(AcceptedRows(c, k, rows)) <==>
      exists i :: 0 <= i < |rows| && rows[i].id == id && RowValid(c, k, rows[i])
  {
    var acc := AcceptedRows(c, k, rows);
    var t := Group(acc);
    GroupKeys(acc);
    forall id
      ensures id in t <==> exists i :: 0 <= i < |rows| && rows[i].id == id && RowValid(c, k, rows[i])
    {
      if id in t {
        assert exists i :: 0 <= i < |rows| && rows[i].id == id && RowValid(c, k, rows[i]) by {
          var j :| 0 <= j < |acc| && acc[j].id == id;
          assert acc[j] in acc;
          var i :| 0 <= i < |rows| && rows[i] == acc[j];
          assert rows[i].id == id && RowValid(c, k, rows[i]);
        }
      }
      if exists i :: 0 <= i < |rows| && rows[i].id == id && RowValid(c, k, rows[i]) {
        assert id in t by {
          var i :| 0 <= i < |rows| && rows[i].id == id && RowValid(c, k, rows[i]);
          assert rows[i] in acc;
          var j :| 0 <= j < |acc| && acc[j] == rows[i];
          assert acc[j].id as nat == id;
        }
      }
    }
  }

  /** Each group of the rebuilt table is ordered by delay and holds only kept
      rows of its own script id: a dropped row appears nowhere. */
  lemma {:induction false} LoadedTableGroups(c: Catalogs, k: Codes, rows: seq<ScriptRow>, id: nat, x: ScriptRow)
    requires var t := Group(AcceptedRows(c, k, rows)); id in t && x in t[id]
    ensures DelaySorted(Group(AcceptedRows(c, k, rows))[id])
    ensures x.id == id && x in rows && RowValid(c, k, x)
  {
    GroupSorted(AcceptedRows(c, k, rows));
    GroupMembers(AcceptedRows(c, k, rows), id, x);
  }
}

=== FILE: script_table.dfy ===
/** The `ScriptMapMap` a loader fills: for each script id, the steps of that
    script as a `std::multimap` keyed by delay. A multimap insert places a new
    step after every step with the same or a smaller delay, so a group is
    always ordered by delay and steps with equal delays keep load order. */
module ScriptTable {
  import opened ScriptTypes

  type Table = map<nat, seq<ScriptRow>>

  predicate DelaySorted(g: seq<ScriptRow>) {
    forall i, j | 0 <= i < j < |g| :: g[i].delay <= g[j].delay
  }

  /** The steps of `rows` that belong to script `id`, in load order. */
  function WithId(rows: seq<ScriptRow>, id: nat): seq<ScriptRow>
    decreases |rows|
  {
    if rows == [] then []
    else
      var last := rows[|rows| - 1];
      WithId(rows[..|rows| - 1], id) + (if last.id == id then [last] else [])
  }

  /** `WithId` keeps exactly the steps of `rows` that carry `id`. */
  lemma {:induction false} WithIdMembers(rows: seq<ScriptRow>, id: nat, x: ScriptRow)
    ensures x in WithId(rows, id) <==> x in rows && x.id == id
    decreases |rows|
  {
    if rows != [] {
      var init := rows[..|rows| - 1];
      WithIdMembers(init, id, x);
      assert rows == init + [rows[|rows| - 1]];
    }
  }

  /** Position of the multimap's upper bound for `delay`: the first step
      whose delay is strictly larger. */
  function UpperBound(g: seq<ScriptRow>, delay: nat): (p: nat)
    ensures p <= |g|
    ensures forall i | 0 <= i < p :: g[i].delay <= delay
    ensures p < |g| ==> delay < g[p].delay
  {
    if g == [] || delay < g[0].delay then 0
    else
      var p := UpperBound(g[1..], delay);
      assert forall i | 1 <= i < |g| :: g[i] == g[1..][i - 1];
      1 + p
  }

  /** In a delay-sorted group, every step from the upper bound on has a
      larger delay. */
  lemma UpperBoundSplits(g: seq<ScriptRow>, delay: nat)
    requires DelaySorted(g)
    ensures forall i | UpperBound(g, delay) <= i < |g| :: delay < g[i].delay
  {
    var p := UpperBound(g, delay);
    forall i | p <= i < |g| ensures delay < g[i].delay {
      assert g[p].delay <= g[i].delay;
    }
  }

  /** `multimap::insert`: the new step goes at the upper bound of its delay. */
  function InsertByDelay(g: seq<ScriptRow>, row: ScriptRow): (r: seq<ScriptRow>)
    ensures multiset(r) == multiset(g) + multiset{row}
  {
    var p := UpperBound(g, row.delay);
    assert g == g[..p] + g[p..];
    g[..p] + [row] + g[p..]
  }

  /** The insert keeps a group ordered by delay, and the new step follows
      every step with the same or a smaller delay. */
  lemma InsertByDelaySorted(g: seq<ScriptRow>, row: ScriptRow)
    requires DelaySorted(g)
    ensures DelaySorted(InsertByDelay(g, row))
    ensures var r := InsertByDelay(g, row); var p := UpperBound(g, row.delay);
      && r[p] == row
      && (forall i | 0 <= i < p :: r[i] == g[i] && r[i].delay <= row.delay)
      && (forall i | p < i < |r| :: r[i] == g[i - 1] && row.delay < r[i].delay)
  {
    var p := UpperBound(g, row.delay);
    var r := InsertByDelay(g, row);
    UpperBoundSplits(g, row.delay);
    InsertByDelayShape(g, row);
    forall i, j | 0 <= i < j < |r| ensures r[i].delay <= r[j].delay {
      if j < p || i > p {
        assert r[i] == g[if i < p then i else i - 1];
      }
    }
  }

  /** Where each step of the old group lands after the insert. */
  lemma InsertByDelayShape(g: seq<ScriptRow>, row: ScriptRow)
    ensures var r := InsertByDelay(g, row); var p := UpperBound(g, row.delay);
      && |r| == |g| + 1 && r[p] == row
      && (forall i | 0 <= i < p :: r[i] == g[i])
      && (forall i | p < i < |r| :: r[i] == g[i - 1])
  {
    var p := UpperBound(g, row.delay);
    var r := InsertByDelay(g, row);
    assert r == g[..p] + [row] + g[p..];
  }

  function GroupOf(t: Table, id: nat): seq<ScriptRow> {
    if id in t then t[id] else []
  }

  /** `scripts[tmp.id].insert(...)`, creating the group on first use. */
  function AddRow(t: Table, row: ScriptRow): (r: Table)
    ensures r.Keys == t.Keys + {row.id as nat}
    ensures forall id | id in t && id != row.id :: r[id] == t[id]
    ensures multiset(r[row.id]) == multiset(GroupOf(t, row.id)) + multiset{row}
  {
    t[row.id := InsertByDelay(GroupOf(t, row.id), row)]
  }

  predicate GroupsSorted(t: Table) {
    forall id | id in t :: DelaySorted(t[id])
  }

  /** Adding a step keeps every group ordered by delay. */
  lemma AddRowSorted(t: Table, row: ScriptRow)
    requires GroupsSorted(t)
    ensures GroupsSorted(AddRow(t, row))
  {
    var r := AddRow(t, row);
    forall id | id in r ensures DelaySorted(r[id]) {
      if id == row.id as nat {
        assert DelaySorted(GroupOf(t, row.id));
        InsertByDelaySorted(GroupOf(t, row.id), row);
      }
    }
  }

  /** The script ids of `rows`. */
  function Ids(rows: seq<ScriptRow>): set<nat>
    decreases |rows|
  {
    if rows == [] then {} else Ids(rows[..|rows| - 1]) + {rows[|rows| - 1].id as nat}
  }

  /** The table obtained by inserting `rows` one after the other into an empty table. */
  function Group(rows: seq<ScriptRow>): (t: Table)
    ensures t.Keys == Ids(rows)
    decreases |rows|
  {
    if rows == [] then map[] else AddRow(Group(rows[..|rows| - 1]), rows[|rows| - 1])
  }

  /** Every group of `Group(rows)` is ordered by delay. */
  lemma {:induction false} GroupSorted(rows: seq<ScriptRow>)
    ensures GroupsSorted(Group(rows))
    decreases |rows|
  {
    if rows != [] {
      GroupSorted(rows[..|rows| - 1]);
      AddRowSorted(Group(rows[..|rows| - 1]), rows[|rows| - 1]);
    }
  }

  lemma GroupSnoc(rows: seq<ScriptRow>, row: ScriptRow)
    ensures Group(rows + [row]) == AddRow(Group(rows), row)
  {
    assert (rows + [row])[..|rows|] == rows;
  }

  /** `Ids` collects exactly the ids that occur in `rows`. */
  lemma {:induction false} IdsOccur(rows: seq<ScriptRow>, id: nat)
    ensures id in Ids(rows) <==> exists i :: 0 <= i < |rows| && rows[i].id as nat == id
    decreases |rows|
  {
    if rows != [] {
      var init := rows[..|rows| - 1];
      IdsOccur(init, id);
      if id in Ids(init) {
        var i :| 0 <= i < |init| && init[i].id as nat == id;
        assert rows[i] == init[i];
      }
      if exists i :: 0 <= i < |rows| && rows[i].id as nat == id {
        var i :| 0 <= i < |rows| && rows[i].id as nat == id;
        if i < |init| {
          assert init[i] == rows[i];
        }
      }
    }
  }

  /** There is a group for exactly the ids that occur in `rows`. */
  lemma {:induction false} GroupKeys(rows: seq<ScriptRow>)
    ensures forall id :: id in Group(rows) <==> exists i :: 0 <= i < |rows| && rows[i].id as nat == id
  {
    forall id: nat {
      IdsOccur(rows, id);
    }
  }

  /** Every group of `Group(rows)` holds exactly the steps of `rows` with that id. */
  lemma {:induction false} GroupContents(rows: seq<ScriptRow>)
    ensures forall id | id in Group(rows) :: multiset(Group(rows)[id]) == multiset(WithId(rows, id))
    decreases |rows|
  {
    if rows != [] {
      var init := rows[..|rows| - 1];
      var last := rows[|rows| - 1];
      GroupContents(init);
      assert rows == init + [last];
      forall id | id in Group(rows)
        ensures multiset(Group(rows)[id]) == multiset(WithId(rows, id))
      {
        GroupContentsStep(init, last, id);
      }
    }
  }

  lemma GroupContentsStep(init: seq<ScriptRow>, last: ScriptRow, id: nat)
    requires id in Group(init) ==> multiset(Group(init)[id]) == multiset(WithId(init, id))
    requires id in Group(init + [last])
    ensures multiset(Group(init + [last])[id]) == multiset(WithId(init + [last], id))
  {
    var rows := init + [last];
    assert rows[..|rows| - 1] == init;
    var t := Group(init);
    assert Group(rows) == AddRow(t, last);
    assert WithId(rows, id) == WithId(init, id) + (if last.id == id then [last] else []);
    if id == last.id {
      assert multiset(Group(rows)[id]) == multiset(GroupOf(t, id)) + multiset{last};
      if id !in t {
        assert WithId(init, id) == [] by {
          if WithId(init, id) != [] {
            var x := WithId(init, id)[0];
            WithIdMembers(init, id, x);
            IdsOccur(init, id);
          }
        }
      }
    }
  }

  /** A group holds only steps of `rows` that carry its own id. */
  lemma {:induction false} GroupMembers(rows: seq<ScriptRow>, id: nat, x: ScriptRow)
    requires id in Group(rows) && x in Group(rows)[id]
    ensures x.id == id && x in rows
  {
    GroupContents(rows);
    assert x in multiset(Group(rows)[id]);
    WithIdMembers(rows, id, x);
  }

  /** The steps of `g` whose delay is `delay`, in order. */
  function AtDelay(g: seq<ScriptRow>, delay: nat): seq<ScriptRow>
    decreases |g|
  {
    if g == [] then []
    else AtDelay(g[..|g| - 1], delay) + if g[|g| - 1].delay == delay then [g[|g| - 1]] else []
  }

  lemma {:induction false} AtDelayConcat(a: seq<ScriptRow>, b: seq<ScriptRow>, delay: nat)
    ensures AtDelay(a + b, delay) == AtDelay(a, delay) + AtDelay(b, delay)
    decreases |b|
  {
    if b == [] {
      assert a + b == a;
    } else {
      var b' := b[..|b| - 1];
      AtDelayConcat(a, b', delay);
      assert (a + b)[..|a + b| - 1] == a + b';
      assert (a + b)[|a + b| - 1] == b[|b| - 1];
    }
  }

  lemma {:induction false} AtDelayNone(g: seq<ScriptRow>, delay: nat)
    requires forall i | 0 <= i < |g| :: delay < g[i].delay
    ensures AtDelay(g, delay) == []
    decreases |g|
  {
    if g != [] {
      AtDelayNone(g[..|g| - 1], delay);
    }
  }

  /** The insert is stable: among the steps of one delay, the new step
      comes last and the others keep their order. */
  lemma InsertByDelayStable(g: seq<ScriptRow>, row: ScriptRow, delay: nat)
    requires DelaySorted(g)
    ensures AtDelay(InsertByDelay(g, row), delay)
      == AtDelay(g, delay) + if row.delay == delay then [row] else []
  {
    var p := UpperBound(g, row.delay);
    var lo, hi := g[..p], g[p..];
    assert forall i | 0 <= i < |hi| :: row.delay < hi[i].delay by {
      UpperBoundSplits(g, row.delay);
      forall i | 0 <= i < |hi| ensures row.delay < hi[i].delay {
        assert hi[i] == g[p + i];
      }
    }
    assert InsertByDelay(g, row) == lo + ([row] + hi);
    assert g == lo + hi;
    AtDelaySplice(lo, hi, row, delay);
  }

  /** Splicing a step in front of steps with larger delays adds it at the
      end of its delay's steps. */
  lemma AtDelaySplice(lo: seq<ScriptRow>, hi: seq<ScriptRow>, row: ScriptRow, delay: nat)
    requires forall i | 0 <= i < |hi| :: row.delay < hi[i].delay
    ensures AtDelay(lo + ([row] + hi), delay)
      == AtDelay(lo + hi, delay) + if row.delay == delay then [row] else []
  {
    var mine := if row.delay == delay then [row] else [];
    var a, h := AtDelay(lo, delay), AtDelay(hi, delay);
    assert AtDelay([row] + hi, delay) == mine + h by {
      AtDelayConcat([row], hi, delay);
      assert [row][..0] == [];
    }
    assert AtDelay(lo + ([row] + hi), delay) == a + (mine + h) by {
      AtDelayConcat(lo, [row] + hi, delay);
    }
    assert AtDelay(lo + hi, delay) == a + h by {
      AtDelayConcat(lo, hi, delay);
    }
    if row.delay == delay {
      AtDelayNone(hi, delay);
    }
  }

  /** Steps of one script with equal delays keep load order: for every
      delay, the group lists its steps in the order the rows came. */
  lemma {:induction false} GroupStable(rows: seq<ScriptRow>, id: nat, delay: nat)
    ensures AtDelay(GroupOf(Group(rows), id), delay) == AtDelay(WithId(rows, id), delay)
    decreases |rows|
  {
    if rows != [] {
      GroupStable(rows[..|rows| - 1], id, delay);
      GroupStableStep(rows, id, delay);
    }
  }

  /** The inductive step of `GroupStable`: loading one more row keeps
      each delay's steps in load order. */
  lemma GroupStableStep(rows: seq<ScriptRow>, id: nat, delay: nat)
    requires rows != []
    requires var init := rows[..|rows| - 1];
      AtDelay(GroupOf(Group(init), id), delay) == AtDelay(WithId(init, id), delay)
    ensures AtDelay(GroupOf(Group(rows), id), delay) == AtDelay(WithId(rows, id), delay)
  {
    var init, last := rows[..|rows| - 1], rows[|rows| - 1];
    var added := if last.id == id && last.delay == delay then [last] else [];
    assert AtDelay(WithId(rows, id), delay) == AtDelay(WithId(init, id), delay) + added by {
      var mine := if last.id == id then [last] else [];
      assert WithId(rows, id) == WithId(init, id) + mine;
      AtDelayConcat(WithId(init, id), mine, delay);
      assert mine == [] || mine[..0] == [];
    }
    assert AtDelay(GroupOf(Group(rows), id), delay) == AtDelay(GroupOf(Group(init), id), delay) + added by {
      GroupOfStep(rows, id, delay);
    }
  }

  /** Loading one more row adds it to its own group's steps of its delay,
      after the ones already there, and leaves other groups alone. */
  lemma GroupOfStep(rows: seq<ScriptRow>, id: nat, delay: nat)
    requires rows != []
    ensures var init, last := rows[..|rows| - 1], rows[|rows| - 1];
      AtDelay(GroupOf(Group(rows), id), delay)
        == AtDelay(GroupOf(Group(init), id), delay)
           + if last.id == id && last.delay == delay then [last] else []
  {
    var init, last := rows[..|rows| - 1], rows[|rows| - 1];
    var g := GroupOf(Group(init), id);
    if last.id == id {
      assert GroupOf(Group(rows), id) == InsertByDelay(g, last);
      GroupSorted(init);
      InsertByDelayStable(g, last, delay);
    } else {
      assert GroupOf(Group(rows), id) == g;
    }
  }
}

=== FILE: script_types.dfy ===
/** The data model of a database script step (`ScriptInfo`) and of the content
    catalogs a step is validated against. The raw row's numeric slots are
    decoded once into a per-command payload; floating-point coordinates are
    reduced to the one fact the loader asks of them (`coordsValid`). */
module ScriptTypes {
  import opened Defs

  /** How a row's `buddy_id` is to be resolved. */
  datatype BuddyType =
    | CreatureEntry
    | CreatureGuid
    | GameObjectEntry
    | GameObjectGuid
    | CreatureInstanceData
    | GameObjectInstanceData
    | UnknownBuddyType(code: nat)

  /** The motion generators SCRIPT_COMMAND_MOVEMENT may switch to;
      `OtherMotion` stands for every code outside the ten listed kinds. */
  datatype MotionType =
    | Idle | Random | Waypoint | Confused | Chase
    | Home | Fleeing | Distract | Follow | Charge
    | OtherMotion(code: nat)

  /** Game object types the door and respawn commands care about. */
  datatype GoType =
    | FishingNode | FishingHole | Door | Button | Trap
    | OtherGoType(code: nat)

  /** A script command with the payload that its opcode selects. */
  datatype Command =
    | Talk(chatType: u32, firstTextId: int, moreTextIds: seq<int>)
    | Emote(emoteId: u32)
    | MoveTo(coordinatesType: u32, movementOptions: u32)
    | TeleportTo(mapId: u32)
    | QuestExplored(questId: u32, distance: u32)
    | KillCredit(creatureEntry: u32)
    | RespawnGameObject(goGuid: u32)
    | TempSummonCreature(creatureEntry: u32)
    | OpenDoor(goGuid: u32)
    | CloseDoor(goGuid: u32)
    | RemoveAura(spellId: u32)
    | CastSpell(spellId: u32, castFlags: u32)
    | CreateItem(itemEntry: u32, amount: u32)
    | DespawnCreature
    | SetEquipment(slots: seq<int>)
    | Movement(motion: MotionType, boolParam: u32)
    | SetActiveObject
    | SetFaction(factionId: u32)
    | MorphToEntryOrModel(creatureOrModelEntry: u32, isDisplayId: bool)
    | MountToEntryOrModel(creatureOrModelEntry: u32, isDisplayId: bool)
    | SetRun
    | AttackStart
    | GoLockState(lockState: u32)
    | StandState(standState: u32)
    | ModifyNpcFlags
    | SendTaxiPath(taxiPathId: u32)
    | TerminateScript(creatureEntry: u32, searchRadius: u32)
    | TerminateCondition(conditionId: u32, failQuest: u32)
    | EnterEvadeMode
    | SetHomePosition
    | TurnTo(facingLogic: u32)
    | MeetingStone(areaId: u32)
    | SetInstData(dataType: u32)
    | SetInstData64(dataType: u32)
    | Unlisted(opcode: nat)

  /** One row of a `*_scripts` table. `coordsValid` is the verdict of the
      map-coordinate check on the row's x, y, z and orientation. */
  datatype ScriptRow = ScriptRow(
    id: u32,
    delay: u32,
    command: Command,
    buddyId: u32,
    buddyRadius: u32,
    buddyType: BuddyType,
    dataFlags: u32,
    coordsValid: bool)

  /** Content the loader looks rows up in. `goTemplates` maps a game object
      entry to its type, `goGuids` a spawned object's guid to its entry, and
      `quests` a quest id to whether it carries EXPLORATION_OR_EVENT. */
  datatype Catalogs = Catalogs(
    creatureTemplates: set<nat>,
    creatureGuids: set<nat>,
    goTemplates: map<nat, GoType>,
    goGuids: map<nat, nat>,
    emotes: set<nat>,
    maps: set<nat>,
    quests: map<nat, bool>,
    items: set<nat>,
    spells: set<nat>,
    factions: set<nat>,
    displayIds: set<nat>,
    taxiPaths: set<nat>,
    conditions: set<nat>,
    areas: set<nat>)
  {
    /** The catalogs after the loader marks quest `q` as needing an explicit objective. */
    function WithExplorationFlag(q: nat): (c: Catalogs)
      requires q in quests
      ensures c.quests.Keys == quests.Keys && c.quests[q]
      ensures forall p | p in quests && p != q :: c.quests[p] == quests[p]
      ensures SameContent(c)
    {
      this.(quests := quests[q := true])
    }

    /** The two catalogs differ at most in the quests' exploration flags. */
    predicate SameContent(other: Catalogs) {
      && other.(quests := quests) == this
      && other.quests.Keys == quests.Keys
    }
  }

  /** Why a row is dropped. */
  datatype Reason =
    | BuddyTemplateMissing
    | BuddyRadiusZero
    | BuddyGuidMissing
    | BuddyGameObjectTemplateMissing
    | BuddyGameObjectGuidMissing
    | BuddyGameObjectEntryMissing
    | SwapFlagsWithoutBuddy
    | ChatTypeOutOfRange
    | FirstTextIdZero
    | EmoteMissing
    | CoordinatesTypeOutOfRange
    | MovementOptionsOutOfRange
    | MapMissing
    | CoordinatesInvalid
    | QuestMissing
    | DistanceTooLarge
    | DistanceTooSmall
    | CreatureTemplateMissing
    | GameObjectGuidMissing
    | GameObjectEntryMissing
    | GameObjectTypeUnsupported
    | SpellMissing
    | CastFlagsUnknown
    | ItemMissing
    | AmountZero
    | EquipmentItemsMissing(slots: seq<nat>)
    | MotionTypeUnknown
    | BoolParamOutOfRange
    | FactionMissing
    | DisplayIdMissing
    | LockStateInvalid
    | StandStateOutOfRange
    | TaxiPathMissing
    | TerminateRadiusZero
    | ConditionMissing
    | FailQuestMissing
    | FacingLogicUnknown
    | AreaMissing
    | InstDataTypeOutOfRange

  /** A non-fatal diagnostic: the row is kept. */
  datatype Warning =
    | BuddyTypeUnknown(code: nat)
    | TextIdNegative(textId: int)
    | QuestFlagAdded(questId: nat)
}

=== FILE: script_validator.dfy ===
/** The per-row decision pipeline of `ScriptMgr::LoadScripts`: buddy check,
    then the swap-flag sanity check, then the opcode-specific check. A row is
    either kept (possibly with warnings) or dropped with one reason. The only
    side effect the pipeline has on content is on QUEST_EXPLORED rows, whose
    quest gains the EXPLORATION_OR_EVENT flag; it is reported in `flagged`. */
module ScriptValidator {
  import opened Defs
  import opened ScriptTypes

  datatype Verdict = Keep | Drop(reason: Reason)

  /** The warnings logged for a row, whether the row is kept, and the quest
      (if any) whose exploration flag the check switched on. */
  datatype Decision = Decision(warnings: seq<Warning>, verdict: Verdict, flagged: Option<nat>)

  // ---------------------------------------------------------------------
  // Reference definition: what a row must satisfy to be kept.
  // ---------------------------------------------------------------------

  /** A non-zero buddy of a checked type names existing content; instance-data
      and unknown buddy types are not checked. */
  predicate BuddyResolves(c: Catalogs, row: ScriptRow) {
    row.buddyId == 0 ||
    match row.buddyType
    case CreatureEntry => row.buddyId in c.creatureTemplates && row.buddyRadius != 0
    case CreatureGuid => row.buddyId in c.creatureGuids
    case GameObjectEntry => row.buddyId in c.goTemplates
    case GameObjectGuid => row.buddyId in c.goGuids && c.goGuids[row.buddyId] in c.goTemplates
    case _ => true
  }

  /** Without a buddy, a row may not ask to swap both the initial and the final targets. */
  predicate SwapFlagsUnambiguous(k: Codes, row: ScriptRow) {
    || row.buddyId != 0
    || !HasFlag(row.dataFlags, k.swapInitialTargets)
    || !HasFlag(row.dataFlags, k.swapFinalTargets)
  }

  /** Respawn cannot target fishing nodes/holes, doors, buttons or traps. */
  predicate Respawnable(t: GoType) {
    !(t.FishingNode? || t.FishingHole? || t.Door? || t.Button? || t.Trap?)
  }

  /** A static game object guid (zero means "resolved at run time") names a
      spawned object whose template exists and whose type is acceptable. */
  predicate StaticObjectUsable(c: Catalogs, guid: u32, doorOnly: bool) {
    guid == 0 ||
    (&& guid in c.goGuids
     && c.goGuids[guid] in c.goTemplates
     && (if doorOnly then c.goTemplates[c.goGuids[guid]] == Door
         else Respawnable(c.goTemplates[c.goGuids[guid]])))
  }

  /** A lock-state request sets something, never lock with unlock (0x01|0x02)
      nor no-interact with interact (0x04|0x08), and stays below the maximum. */
  predicate LockStateValid(s: u32, max: nat) {
    && s != 0
    && !(HasFlag(s, 0x01) && HasFlag(s, 0x02))
    && !(HasFlag(s, 0x04) && HasFlag(s, 0x08))
    && s < max
  }

  /** A creature-or-model reference: zero disables it, otherwise it must name
      a display id or a creature template depending on `isDisplayId`. */
  predicate EntryOrModelExists(c: Catalogs, e: u32, isDisplayId: bool) {
    e == 0 || (if isDisplayId then e in c.displayIds else e in c.creatureTemplates)
  }

  predicate CommandValid(c: Catalogs, k: Codes, cmd: Command, coordsValid: bool) {
    match cmd
    case Talk(chatType, first, _) => chatType <= k.chat.zoneYell && first != 0
    case Emote(e) => e in c.emotes
    case MoveTo(ct, options) => ct < k.moveToCoordinatesMax && options <= 511
    case TeleportTo(m) => m in c.maps && coordsValid
    case QuestExplored(q, d) =>
      && q in c.quests
      && d as real <= k.visibilityDistance
      && (d == 0 || d as real >= k.interactionDistance)
    case KillCredit(e) => e in c.creatureTemplates
    case RespawnGameObject(g) => StaticObjectUsable(c, g, false)
    case TempSummonCreature(e) => coordsValid && e in c.creatureTemplates
    case OpenDoor(g) => StaticObjectUsable(c, g, true)
    case CloseDoor(g) => StaticObjectUsable(c, g, true)
    case RemoveAura(s) => s in c.spells
    case CastSpell(s, flags) => s in c.spells && flags <= 3
    case CreateItem(i, amount) => i in c.items && amount != 0
    case SetEquipment(slots) => forall i :: 0 <= i < |slots| && slots[i] > 0 ==> slots[i] in c.items
    case Movement(m, b) => !m.OtherMotion? && b <= 1
    case SetFaction(f) => f == 0 || f in c.factions
    case MorphToEntryOrModel(e, isDisplayId) => EntryOrModelExists(c, e, isDisplayId)
    case MountToEntryOrModel(e, isDisplayId) => EntryOrModelExists(c, e, isDisplayId)
    case GoLockState(s) => LockStateValid(s, k.goLockStateMax)
    case StandState(s) => s < k.maxUnitStandState
    case SendTaxiPath(p) => p in c.taxiPaths
    case TerminateScript(e, radius) => e == 0 || (e in c.creatureTemplates && radius != 0)
    case TerminateCondition(cond, q) => cond in c.conditions && (q == 0 || q in c.quests)
    case TurnTo(f) => f <= 1
    case MeetingStone(a) => a in c.areas
    case SetInstData(t) => t < k.instDataMax
    case SetInstData64(t) => t < k.instData64Max
    case _ => true
  }

  /** The row passes all three stages of the pipeline. */
  predicate RowValid(c: Catalogs, k: Codes, row: ScriptRow) {
    && BuddyResolves(c, row)
    && SwapFlagsUnambiguous(k, row)
    && CommandValid(c, k, row.command, row.coordsValid)
  }

  // ---------------------------------------------------------------------
  // The pipeline as the loader runs it.
  // ---------------------------------------------------------------------

  /** `flags & ~0x3` is zero exactly when the flags are at most 3. */
  lemma CastFlagsMask(flags: u32)
    ensures !HasFlag(flags, 0xFFFF_FFFC) <==> flags <= 3
  {
    var b := Bits(flags);
    if flags <= 3 {
      assert b <= 3;
      assert b & 0xFFFF_FFFC == 0;
    } else {
      assert b > 3;
      assert b & 0xFFFF_FFFC != 0;
    }
  }

  /** Warnings for every negative text id: the check's inner `continue`
      only skips to the next id, so the row itself is kept. */
  function NegativeTextIds(ids: seq<int>): (r: seq<Warning>)
    ensures forall w | w in r :: w.TextIdNegative? && w.textId < 0 && w.textId in ids
    ensures forall i | 0 <= i < |ids| && ids[i] < 0 :: TextIdNegative(ids[i]) in r
  {
    if ids == [] then []
    else
      var rest := NegativeTextIds(ids[1..]);
      assert forall i | 1 <= i < |ids| :: ids[i] == ids[1..][i - 1];
      if ids[0] < 0 then [TextIdNegative(ids[0])] + rest else rest
  }

  /** Indices, from `from` on, of equipment slots naming an item that does not exist. */
  function MissingSlots(slots: seq<int>, items: set<nat>, from: nat): (r: seq<nat>)
    requires from <= |slots|
    ensures forall j :: j in r <==> from <= j < |slots| && slots[j] > 0 && slots[j] !in items
    decreases |slots| - from
  {
    if from == |slots| then []
    else
      var rest := MissingSlots(slots, items, from + 1);
      if slots[from] > 0 && slots[from] !in items then [from] + rest else rest
  }

  function CheckBuddy(c: Catalogs, row: ScriptRow): (d: Decision)
    ensures d.flagged == None
    ensures d.warnings == if row.buddyId != 0 && row.buddyType.UnknownBuddyType?
      then [BuddyTypeUnknown(row.buddyType.code)] else []
  {
    if row.buddyId == 0 then Decision([], Keep, None)
    else
      match row.buddyType
      case CreatureEntry =>
        if row.buddyId !in c.creatureTemplates then Decision([], Drop(BuddyTemplateMissing), None)
        else if row.buddyRadius == 0 then Decision([], Drop(BuddyRadiusZero), None)
        else Decision([], Keep, None)
      case CreatureGuid =>
        if row.buddyId !in c.creatureGuids then Decision([], Drop(BuddyGuidMissing), None)
        else Decision([], Keep, None)
      case GameObjectEntry =>
        if row.buddyId !in c.goTemplates then Decision([], Drop(BuddyGameObjectTemplateMissing), None)
        else Decision([], Keep, None)
      case GameObjectGuid =>
        if row.buddyId !in c.goGuids then Decision([], Drop(BuddyGameObjectGuidMissing), None)
        else if c.goGuids[row.buddyId] !in c.goTemplates then Decision([], Drop(BuddyGameObjectEntryMissing), None)
        else Decision([], Keep, None)
      case CreatureInstanceData => Decision([], Keep, None)
      case GameObjectInstanceData => Decision([], Keep, None)
      case UnknownBuddyType(code) => Decision([BuddyTypeUnknown(code)], Keep, None)
  }

  function CheckStaticObject(c: Catalogs, guid: u32, doorOnly: bool): Verdict {
    if guid == 0 then Keep
    else if guid !in c.goGuids then Drop(GameObjectGuidMissing)
    else if c.goGuids[guid] !in c.goTemplates then Drop(GameObjectEntryMissing)
    else if doorOnly && c.goTemplates[c.goGuids[guid]] != Door then Drop(GameObjectTypeUnsupported)
    else if !doorOnly && !Respawnable(c.goTemplates[c.goGuids[guid]]) then Drop(GameObjectTypeUnsupported)
    else Keep
  }

  function CheckEntryOrModel(c: Catalogs, e: u32, isDisplayId: bool): Verdict {
    if isDisplayId then
      if e != 0 && e !in c.displayIds then Drop(DisplayIdMissing) else Keep
    else
      if e != 0 && e !in c.creatureTemplates then Drop(CreatureTemplateMissing) else Keep
  }

  function CheckQuestExplored(c: Catalogs, k: Codes, q: u32, distance: u32): Decision {
    if q !in c.quests then Decision([], Drop(QuestMissing), None)
    else
      var flagged := if c.quests[q] then None else Some(q as nat);
      var warnings := if c.quests[q] then [] else [QuestFlagAdded(q)];
      if distance as real > k.visibilityDistance then Decision(warnings, Drop(DistanceTooLarge), flagged)
      else if distance != 0 && (distance as real) < k.interactionDistance then
        Decision(warnings, Drop(DistanceTooSmall), flagged)
      else Decision(warnings, Keep, flagged)
  }

  /** The opcode stage warns only about the negative text ids of a kept
      TALK command and about a quest it flags. */
  lemma CommandWarnings(c: Catalogs, k: Codes, cmd: Command, coordsValid: bool)
    ensures var d := CheckCommand(c, k, cmd, coordsValid);
      && (forall code: nat :: BuddyTypeUnknown(code) !in d.warnings)
      && (cmd.Talk? && d.verdict.Keep? ==>
            forall id | id in [cmd.firstTextId] + cmd.moreTextIds && id < 0 :: TextIdNegative(id) in d.warnings)
      && (forall id | TextIdNegative(id) in d.warnings ::
            cmd.Talk? && d.verdict.Keep? && id < 0 && id in [cmd.firstTextId] + cmd.moreTextIds)
      && (d.flagged.Some? ==> QuestFlagAdded(d.flagged.value) in d.warnings)
      && (forall q: nat | QuestFlagAdded(q) in d.warnings :: d.flagged == Some(q))
  {
    var d := CheckCommand(c, k, cmd, coordsValid);
    if cmd.Talk? {
      var ids := [cmd.firstTextId] + cmd.moreTextIds;
      if d.verdict.Keep? {
        assert d.warnings == NegativeTextIds(ids);
        forall id | id in ids && id < 0 ensures TextIdNegative(id) in d.warnings {
          var i :| 0 <= i < |ids| && ids[i] == id;
        }
      } else {
        assert d.warnings == [];
      }
    } else if !cmd.QuestExplored? {
      assert d.warnings == [];
    }
  }

  /** The opcode-specific stage. Opcodes whose case is empty, and opcodes
      the switch does not list, are kept unconditionally. */
  function CheckCommand(c: Catalogs, k: Codes, cmd: Command, coordsValid: bool): (d: Decision)
    ensures d.flagged.Some? ==> cmd.QuestExplored?
    ensures !cmd.Talk? && !cmd.QuestExplored? ==> d.warnings == []
  {
    match cmd
    case Talk(chatType, first, more) =>
      if chatType > k.chat.zoneYell then Decision([], Drop(ChatTypeOutOfRange), None)
      else if first == 0 then Decision([], Drop(FirstTextIdZero), None)
      else Decision(NegativeTextIds([first] + more), Keep, None)
    case Emote(e) =>
      Decision([], if e !in c.emotes then Drop(EmoteMissing) else Keep, None)
    case MoveTo(ct, options) =>
      if ct >= k.moveToCoordinatesMax then Decision([], Drop(CoordinatesTypeOutOfRange), None)
      else if options > 511 then Decision([], Drop(MovementOptionsOutOfRange), None)
      else Decision([], Keep, None)
    case TeleportTo(m) =>
      if m !in c.maps then Decision([], Drop(MapMissing), None)
      else if !coordsValid then Decision([], Drop(CoordinatesInvalid), None)
      else Decision([], Keep, None)
    case QuestExplored(q, distance) => CheckQuestExplored(c, k, q, distance)
    case KillCredit(e) =>
      Decision([], if e !in c.creatureTemplates then Drop(CreatureTemplateMissing) else Keep, None)
    case RespawnGameObject(g) => Decision([], CheckStaticObject(c, g, false), None)
    case TempSummonCreature(e) =>
      if !coordsValid then Decision([], Drop(CoordinatesInvalid), None)
      else if e !in c.creatureTemplates then Decision([], Drop(CreatureTemplateMissing), None)
      else Decision([], Keep, None)
    case OpenDoor(g) => Decision([], CheckStaticObject(c, g, true), None)
    case CloseDoor(g) => Decision([], CheckStaticObject(c, g, true), None)
    case RemoveAura(s) =>
      Decision([], if s !in c.spells then Drop(SpellMissing) else Keep, None)
    case CastSpell(s, flags) =>
      if s !in c.spells then Decision([], Drop(SpellMissing), None)
      else if HasFlag(flags, 0xFFFF_FFFC) then Decision([], Drop(CastFlagsUnknown), None)
      else Decision([], Keep, None)
    case CreateItem(i, amount) =>
      if i !in c.items then Decision([], Drop(ItemMissing), None)
      else if amount == 0 then Decision([], Drop(AmountZero), None)
      else Decision([], Keep, None)
    case SetEquipment(slots) =>
      var missing := MissingSlots(slots, c.items, 0);
      Decision([], if missing != [] then Drop(EquipmentItemsMissing(missing)) else Keep, None)
    case Movement(m, b) =>
      if m.OtherMotion? then Decision([], Drop(MotionTypeUnknown), None)
      else if b > 1 then Decision([], Drop(BoolParamOutOfRange), None)
      else Decision([], Keep, None)
    case SetFaction(f) =>
      Decision([], if f != 0 && f !in c.factions then Drop(FactionMissing) else Keep, None)
    case MorphToEntryOrModel(e, isDisplayId) => Decision([], CheckEntryOrModel(c, e, isDisplayId), None)
    case MountToEntryOrModel(e, isDisplayId) => Decision([], CheckEntryOrModel(c, e, isDisplayId), None)
    case GoLockState(s) =>
      Decision([], if !LockStateValid(s, k.goLockStateMax) then Drop(LockStateInvalid) else Keep, None)
    case StandState(s) =>
      Decision([], if s >= k.maxUnitStandState then Drop(StandStateOutOfRange) else Keep, None)
    case SendTaxiPath(p) =>
      Decision([], if p !in c.taxiPaths then Drop(TaxiPathMissing) else Keep, None)
    case TerminateScript(e, radius) =>
      if e != 0 && e !in c.creatureTemplates then Decision([], Drop(CreatureTemplateMissing), None)
      else if e != 0 && radius == 0 then Decision([], Drop(TerminateRadiusZero), None)
      else Decision([], Keep, None)
    case TerminateCondition(cond, q) =>
      if cond !in c.conditions then Decision([], Drop(ConditionMissing), None)
      else if q != 0 && q !in c.quests then Decision([], Drop(FailQuestMissing), None)
      else Decision([], Keep, None)
    case TurnTo(f) =>
      Decision([], if f > 1 then Drop(FacingLogicUnknown) else Keep, None)
    case MeetingStone(a) =>
      Decision([], if a !in c.areas then Drop(AreaMissing) else Keep, None)
    case SetInstData(t) =>
      Decision([], if t >= k.instDataMax then Drop(InstDataTypeOutOfRange) else Keep, None)
    case SetInstData64(t) =>
      Decision([], if t >= k.instData64Max then Drop(InstDataTypeOutOfRange) else Keep, None)
    case DespawnCreature => Decision([], Keep, None)
    case SetActiveObject => Decision([], Keep, None)
    case SetRun => Decision([], Keep, None)
    case AttackStart => Decision([], Keep, None)
    case ModifyNpcFlags => Decision([], Keep, None)
    case EnterEvadeMode => Decision([], Keep, None)
    case SetHomePosition => Decision([], Keep, None)
    case Unlisted(_) => Decision([], Keep, None)
  }

  /** The whole pipeline for one row. */
  function ValidateRow(c: Catalogs, k: Codes, row: ScriptRow): (d: Decision)
    ensures d.verdict.Keep? <==> RowValid(c, k, row)
    ensures d.flagged.Some? <==>
      && BuddyResolves(c, row) && SwapFlagsUnambiguous(k, row)
      && row.command.QuestExplored? && row.command.questId in c.quests
      && !c.quests[row.command.questId]
    ensures d.flagged.Some? ==> d.flagged.value == row.command.questId
    ensures forall code: nat ::
      BuddyTypeUnknown(code) in d.warnings <==> row.buddyId != 0 && row.buddyType == UnknownBuddyType(code)
    ensures row.command.Talk? && d.verdict.Keep? ==>
      forall id | id in [row.command.firstTextId] + row.command.moreTextIds && id < 0 :: TextIdNegative(id) in d.warnings
    ensures forall id | TextIdNegative(id) in d.warnings ::
      && row.command.Talk? && d.verdict.Keep? && id < 0
      && id in [row.command.firstTextId] + row.command.moreTextIds
    ensures d.flagged.Some? ==> QuestFlagAdded(d.flagged.value) in d.warnings
    ensures forall q: nat | QuestFlagAdded(q) in d.warnings :: d.flagged == Some(q)
  {
    var b := CheckBuddy(c, row);
    if b.verdict.Drop? then b
    else if HasFlag(row.dataFlags, k.swapInitialTargets) && HasFlag(row.dataFlags, k.swapFinalTargets)
      && row.buddyId == 0 then
      Decision(b.warnings, Drop(SwapFlagsWithoutBuddy), None)
    else
      var m := CheckCommand(c, k, row.command, row.coordsValid);
      CommandMatchesReference(c, k, row.command, row.coordsValid);
      CommandWarnings(c, k, row.command, row.coordsValid);
      Decision(b.warnings + m.warnings, m.verdict, m.flagged)
  }

  /** The opcode stage keeps a command exactly when `CommandValid` holds,
      and flags exactly the unexplored-flag quests of `QUEST_EXPLORED`. */
  lemma CommandMatchesReference(c: Catalogs, k: Codes, cmd: Command, coordsValid: bool)
    ensures CheckCommand(c, k, cmd, coordsValid).verdict.Keep? <==> CommandValid(c, k, cmd, coordsValid)
    ensures CheckCommand(c, k, cmd, coordsValid).flagged.Some? <==>
      cmd.QuestExplored? && cmd.questId in c.quests && !c.quests[cmd.questId]
    ensures CheckCommand(c, k, cmd, coordsValid).flagged.Some? ==>
      CheckCommand(c, k, cmd, coordsValid).flagged.value == cmd.questId
  {
    if FirstOpcodes(cmd) {
      FirstOpcodesMatch(c, k, cmd, coordsValid);
    } else if MiddleOpcodes(cmd) {
      MiddleOpcodesMatch(c, k, cmd, coordsValid);
    } else {
      LaterOpcodesMatch(c, k, cmd, coordsValid);
    }
  }

  /** The opcodes up to `QUEST_EXPLORED`, the proof's first part. */
  predicate FirstOpcodes(cmd: Command) {
    cmd.Talk? || cmd.Emote? || cmd.MoveTo? || cmd.TeleportTo? || cmd.QuestExplored?
  }

  /** The opcodes from `KILL_CREDIT` to `CREATE_ITEM`, the proof's second part. */
  predicate MiddleOpcodes(cmd: Command) {
    || cmd.KillCredit? || cmd.RespawnGameObject? || cmd.TempSummonCreature? || cmd.OpenDoor?
    || cmd.CloseDoor? || cmd.RemoveAura? || cmd.CastSpell? || cmd.CreateItem?
  }

  lemma FirstOpcodesMatch(c: Catalogs, k: Codes, cmd: Command, coordsValid: bool)
    requires FirstOpcodes(cmd)
    ensures CheckCommand(c, k, cmd, coordsValid).verdict.Keep? <==> CommandValid(c, k, cmd, coordsValid)
    ensures CheckCommand(c, k, cmd, coordsValid).flagged.Some? <==>
      cmd.QuestExplored? && cmd.questId in c.quests && !c.quests[cmd.questId]
    ensures CheckCommand(c, k, cmd, coordsValid).flagged.Some? ==>
      CheckCommand(c, k, cmd, coordsValid).flagged.value == cmd.questId
  {
  }

  lemma MiddleOpcodesMatch(c: Catalogs, k: Codes, cmd: Command, coordsValid: bool)
    requires MiddleOpcodes(cmd)
    ensures CheckCommand(c, k, cmd, coordsValid).verdict.Keep? <==> CommandValid(c, k, cmd, coordsValid)
  {
    if cmd.CastSpell? {
      CastFlagsMask(cmd.castFlags);
    }
  }

  lemma LaterOpcodesMatch(c: Catalogs, k: Codes, cmd: Command, coordsValid: bool)
    requires !FirstOpcodes(cmd) && !MiddleOpcodes(cmd)
    ensures CheckCommand(c, k, cmd, coordsValid).verdict.Keep? <==> CommandValid(c, k, cmd, coordsValid)
  {
    if cmd.SetEquipment? {
      var missing := MissingSlots(cmd.slots, c.items, 0);
      if missing != [] {
        assert missing[0] in missing;
      }
    }
  }
}

=== FILE: spell_summary.dfy ===
/** `FillSpellSummary`: for every spell id below the highest one, the kinds
    of target its effects select and the kinds of effect it has, summarised
    as flag sets (bit `SELECT_* - 1` of the source's masks). A spell id
    without a spell gets empty sets. */
module SpellSummary {

  /** The implicit target types the summary looks at; every other type is
      `OtherTarget`. */
  datatype ImplicitTarget =
    | TargetSelf
    | ChainDamage
    | CurrentEnemyCoordinates
    | AllEnemyInArea
    | AllEnemyInAreaInstant
    | CasterCoordinates
    | AllEnemyInAreaChanneled
    | SingleFriend
    | SingleParty
    | AllPartyAroundCaster
    | AreaEffectParty
    | OtherTarget(code: nat)

  datatype SpellEffect =
    | SchoolDamage | Instakill | EnvironmentalDamage | HealthLeech
    | Heal | HealMaxHealth | HealMechanical | ApplyAura
    | OtherEffect(code: nat)

  /** One of a spell's three effect slots. */
  datatype EffectSlot = EffectSlot(effect: SpellEffect, targetA: ImplicitTarget, auraName: nat)

  datatype Spell = Spell(slots: seq<EffectSlot>)

  datatype TargetFlag =
    | SelectSelf | SelectSingleEnemy | SelectAoeEnemy | SelectAnyEnemy
    | SelectSingleFriend | SelectAoeFriend | SelectAnyFriend

  datatype EffectFlag = SelectDamage | SelectHealing | SelectAura

  datatype Summary = Summary(targets: set<TargetFlag>, effects: set<EffectFlag>)

  /** The aura that heals periodically, compared against as a literal. */
  const PeriodicHealAura: nat := 8

  /** The target flags one slot contributes, gathered from the loop body's
      seven `if`s: a single-enemy or area-enemy target also sets "any enemy",
      and self, single-friend or area-friend targets set "any friend". */
  function SlotTargets(t: ImplicitTarget): set<TargetFlag> {
    match t
    case TargetSelf => {SelectSelf, SelectSingleFriend, SelectAnyFriend}
    case ChainDamage => {SelectSingleEnemy, SelectAnyEnemy}
    case CurrentEnemyCoordinates => {SelectSingleEnemy, SelectAnyEnemy}
    case AllEnemyInArea => {SelectAoeEnemy, SelectAnyEnemy}
    case AllEnemyInAreaInstant => {SelectAoeEnemy, SelectAnyEnemy}
    case CasterCoordinates => {SelectAoeEnemy, SelectAnyEnemy, SelectAoeFriend, SelectAnyFriend}
    case AllEnemyInAreaChanneled => {SelectAoeEnemy, SelectAnyEnemy}
    case SingleFriend => {SelectSingleFriend, SelectAnyFriend}
    case SingleParty => {SelectSingleFriend, SelectAnyFriend}
    case AllPartyAroundCaster => {SelectAoeFriend, SelectAnyFriend}
    case AreaEffectParty => {SelectAoeFriend, SelectAnyFriend}
    case OtherTarget(_) => {}
  }

  function SlotEffects(s: EffectSlot): set<EffectFlag> {
    (if s.effect == SchoolDamage || s.effect == Instakill || s.effect == EnvironmentalDamage
        || s.effect == HealthLeech then {SelectDamage} else {})
    + (if s.effect == Heal || s.effect == HealMaxHealth || s.effect == HealMechanical
          || (s.effect == ApplyAura && s.auraName == PeriodicHealAura) then {SelectHealing} else {})
    + (if s.effect == ApplyAura then {SelectAura} else {})
  }

  /** The masks accumulated over the slots, starting from 0. */
  function Summarize(slots: seq<EffectSlot>): (r: Summary)
    decreases |slots|
  {
    if slots == [] then Summary({}, {})
    else
      var prev := Summarize(slots[..|slots| - 1]);
      var s := slots[|slots| - 1];
      Summary(prev.targets + SlotTargets(s.targetA), prev.effects + SlotEffects(s))
  }

  /** The summary table: an entry for every id below `maxSpellId`. */
  function FillSpellSummary(maxSpellId: nat, spells: map<nat, Spell>): (r: seq<Summary>)
    ensures |r| == maxSpellId
    ensures forall i | 0 <= i < maxSpellId && i !in spells :: r[i] == Summary({}, {})
    ensures forall i | 0 <= i < maxSpellId && i in spells :: r[i] == Summarize(spells[i].slots)
  {
    seq(maxSpellId, i requires 0 <= i => if i in spells then Summarize(spells[i].slots) else Summary({}, {}))
  }

  /** The summary has a target flag exactly when some slot contributes it. */
  lemma {:induction false} SummarizeTargets(slots: seq<EffectSlot>, f: TargetFlag)
    ensures f in Summarize(slots).targets <==> exists j | 0 <= j < |slots| :: f in SlotTargets(slots[j].targetA)
    decreases |slots|
  {
    if slots != [] {
      var init := slots[..|slots| - 1];
      var last := slots[|slots| - 1];
      SummarizeTargets(init, f);
      assert Summarize(slots).targets == Summarize(init).targets + SlotTargets(last.targetA);
      if exists j | 0 <= j < |slots| :: f in SlotTargets(slots[j].targetA) {
        var j :| 0 <= j < |slots| && f in SlotTargets(slots[j].targetA);
        if j < |init| { assert init[j] == slots[j]; }
      }
      if exists j | 0 <= j < |init| :: f in SlotTargets(init[j].targetA) {
        var j :| 0 <= j < |init| && f in SlotTargets(init[j].targetA);
        assert slots[j] == init[j];
      }
    }
  }

  /** The summary has an effect flag exactly when some slot contributes it. */
  lemma {:induction false} SummarizeEffects(slots: seq<EffectSlot>, g: EffectFlag)
    ensures g in Summarize(slots).effects <==> exists j | 0 <= j < |slots| :: g in SlotEffects(slots[j])
    decreases |slots|
  {
    if slots != [] {
      var init := slots[..|slots| - 1];
      var last := slots[|slots| - 1];
      SummarizeEffects(init, g);
      assert Summarize(slots).effects == Summarize(init).effects + SlotEffects(last);
      if exists j | 0 <= j < |slots| :: g in SlotEffects(slots[j]) {
        var j :| 0 <= j < |slots| && g in SlotEffects(slots[j]);
        if j < |init| { assert init[j] == slots[j]; }
      }
      if exists j | 0 <= j < |init| :: g in SlotEffects(init[j]) {
        var j :| 0 <= j < |init| && g in SlotEffects(init[j]);
        assert slots[j] == init[j];
      }
    }
  }

  /** Per slot, the "any" lists are exactly the unions of the single and
      area lists; self targeting counts as a single friend. */
  lemma SlotTargetsNested(t: ImplicitTarget)
    ensures SelectAnyEnemy in SlotTargets(t) <==>
      SelectSingleEnemy in SlotTargets(t) || SelectAoeEnemy in SlotTargets(t)
    ensures SelectAnyFriend in SlotTargets(t) <==>
      SelectSingleFriend in SlotTargets(t) || SelectAoeFriend in SlotTargets(t)
    ensures SelectSelf in SlotTargets(t) ==> SelectSingleFriend in SlotTargets(t)
  {
  }

  /** For a whole spell: it may target any enemy exactly when it targets a
      single enemy or enemies in an area, and likewise for friends. */
  lemma SummaryTargetsNested(slots: seq<EffectSlot>)
    ensures var t := Summarize(slots).targets;
      && (SelectAnyEnemy in t <==> SelectSingleEnemy in t || SelectAoeEnemy in t)
      && (SelectAnyFriend in t <==> SelectSingleFriend in t || SelectAoeFriend in t)
      && (SelectSelf in t ==> SelectSingleFriend in t)
  {
    SummarizeTargets(slots, SelectAnyEnemy);
    SummarizeTargets(slots, SelectSingleEnemy);
    SummarizeTargets(slots, SelectAoeEnemy);
    SummarizeTargets(slots, SelectAnyFriend);
    SummarizeTargets(slots, SelectSingleFriend);
    SummarizeTargets(slots, SelectAoeFriend);
    SummarizeTargets(slots, SelectSelf);
    forall j | 0 <= j < |slots| {
      SlotTargetsNested(slots[j].targetA);
    }
  }

  /** A periodic-heal aura counts both as healing and as an aura. */
  lemma PeriodicHealIsHealingAura(slots: seq<EffectSlot>, j: nat)
    requires j < |slots| && slots[j].effect == ApplyAura && slots[j].auraName == PeriodicHealAura
    ensures SelectHealing in Summarize(slots).effects && SelectAura in Summarize(slots).effects
  {
    SummarizeEffects(slots, SelectHealing);
    SummarizeEffects(slots, SelectAura);
  }
}

=== FILE: text_announcer.dfy ===
/** `DoScriptText` and `DoOrSimulateScriptTextForMap`: resolve a text id to
    its attributes (non-negative ids through the broadcast texts, negative
    ids through the script texts or, for the map variant, the server's
    strings), then play its sound, perform its emote and say it on the
    channel of its chat type. Every call on the world becomes an `Effect`,
    logged errors included, so a call's behaviour is its effect trace. */
module TextAnnouncer {
  import opened Defs

  /** The attributes a text row carries. `chatType` is the stored value,
      before the 8-bit truncation of the announcer's `Type` variable. */
  datatype TextAttrs = TextAttrs(chatType: nat, emote: nat, language: nat, sound: nat)

  /** Where texts and sounds are looked up. `scriptTexts` holds the
      negative ids of the script text tables, `serverStrings` the negative
      ids of the server's own strings. */
  datatype TextCatalogs = TextCatalogs(
    broadcast: map<int, TextAttrs>,
    scriptTexts: map<int, TextAttrs>,
    serverStrings: map<int, TextAttrs>,
    sounds: set<nat>,
    creatureTemplates: set<nat>)

  datatype ObjectKind = UnitObject | PlayerObject | OtherObject

  /** The speaking object: its type id and the map it is on, if any. */
  datatype Speaker = Speaker(kind: ObjectKind, onMap: Option<nat>)

  datatype Listener = Listener(id: nat, kind: ObjectKind)

  /** Who a map-wide yell is attributed to. */
  datatype Voice = CreatureVoice(guid: nat) | SimulatedVoice(creatureEntry: nat)

  datatype Failure =
    | SourceMissing
    | BroadcastTextMissing
    | TextMissing
    | SoundInvalid
    | EmoteSourceInvalid
    | WhisperWithoutPlayer
    | MapMissing
    | CreatureEntryInvalid
    | ChatTypeUnsupported

  datatype Effect =
    | Error(failure: Failure)
    | SoundToMap(mapId: nat, sound: nat)
    | SoundToSource(sound: nat)
    | PerformEmote(emote: nat)
    | Say(text: int, language: nat, target: Option<Listener>)
    | Yell(text: int, language: nat, target: Option<Listener>)
    | TextEmote(text: int, target: Option<Listener>, boss: bool)
    | Whisper(text: int, to: Listener, boss: bool)
    | YellToZone(text: int, language: nat, target: Option<Listener>)
    | YellToMap(mapId: nat, voice: Voice, text: int, language: nat, target: Option<Listener>)

  /** An effect that reaches players (everything but a logged error). */
  predicate Emission(e: Effect) {
    !e.Error?
  }

  predicate ChatEffect(e: Effect) {
    e.Say? || e.Yell? || e.TextEmote? || e.Whisper? || e.YellToZone? || e.YellToMap?
  }

  /** Text lookup by the sign of the id. */
  function Resolve(table: map<int, TextAttrs>, broadcast: map<int, TextAttrs>, textId: int): (r: Option<TextAttrs>)
    ensures r.Some? <==> (textId >= 0 && textId in broadcast) || (textId < 0 && textId in table)
    ensures r.Some? && textId >= 0 ==> r.value == broadcast[textId]
    ensures r.Some? && textId < 0 ==> r.value == table[textId]
  {
    var store := if textId >= 0 then broadcast else table;
    if textId in store then Some(store[textId]) else None
  }

  /** The chat type after `uint8 Type = ...` and the override. */
  function EffectiveType(attrs: TextAttrs, chatTypeOverride: u32): (t: nat)
    ensures t < 256
    ensures chatTypeOverride != 0 ==> t == chatTypeOverride % 256
    ensures chatTypeOverride == 0 ==> t == attrs.chatType % 256
  {
    if chatTypeOverride != 0 then chatTypeOverride % 256 else attrs.chatType % 256
  }

  function SoundEffects(c: TextCatalogs, k: Codes, source: Speaker, attrs: TextAttrs, chatType: nat): seq<Effect> {
    if attrs.sound == 0 then []
    else if attrs.sound !in c.sounds then [Error(SoundInvalid)]
    else if chatType == k.chat.zoneYell then
      if source.onMap.Some? then [SoundToMap(source.onMap.value, attrs.sound)] else []
    else [SoundToSource(attrs.sound)]
  }

  function EmoteEffects(source: Speaker, attrs: TextAttrs): seq<Effect> {
    if attrs.emote == 0 then []
    else if source.kind == UnitObject || source.kind == PlayerObject then [PerformEmote(attrs.emote)]
    else [Error(EmoteSourceInvalid)]
  }

  /** The `switch (Type)` of `DoScriptText`; a type outside the seven
      cases says nothing. */
  function ChatEffects(k: Codes, textId: int, attrs: TextAttrs, chatType: nat, target: Option<Listener>): seq<Effect> {
    var whisperOk := target.Some? && target.value.kind == PlayerObject;
    if chatType == k.chat.say then [Say(textId, attrs.language, target)]
    else if chatType == k.chat.yell then [Yell(textId, attrs.language, target)]
    else if chatType == k.chat.textEmote then [TextEmote(textId, target, false)]
    else if chatType == k.chat.bossEmote then [TextEmote(textId, target, true)]
    else if chatType == k.chat.whisper then
      if whisperOk then [Whisper(textId, target.value, false)] else [Error(WhisperWithoutPlayer)]
    else if chatType == k.chat.bossWhisper then
      if whisperOk then [Whisper(textId, target.value, true)] else [Error(WhisperWithoutPlayer)]
    else if chatType == k.chat.zoneYell then [YellToZone(textId, attrs.language, target)]
    else []
  }

  /** `DoScriptText(iTextEntry, pSource, pTarget, chatTypeOverride)`. */
  function DoScriptText(c: TextCatalogs, k: Codes, textId: int, source: Option<Speaker>,
                        target: Option<Listener>, chatTypeOverride: u32): (trace: seq<Effect>)
    ensures source.None? ==> trace == [Error(SourceMissing)]
    ensures source.Some? && Resolve(c.scriptTexts, c.broadcast, textId).None? ==>
      trace == [Error(if textId >= 0 then BroadcastTextMissing else TextMissing)]
    ensures forall e | e in trace && Emission(e) ::
      source.Some? && Resolve(c.scriptTexts, c.broadcast, textId).Some?
  {
    match source
    case None => [Error(SourceMissing)]
    case Some(src) =>
      match Resolve(c.scriptTexts, c.broadcast, textId)
      case None => [Error(if textId >= 0 then BroadcastTextMissing else TextMissing)]
      case Some(attrs) =>
        var t := EffectiveType(attrs, chatTypeOverride);
        SoundEffects(c, k, src, attrs, t) + EmoteEffects(src, attrs) + ChatEffects(k, textId, attrs, t, target)
  }

  /** With the source and text present, a call plays the text's sound to
      the speaker, or to the speaker's map for a zone yell, when the sound
      exists; it plays no other sound, and reports a sound that does not. */
  lemma DoScriptTextSound(c: TextCatalogs, k: Codes, textId: int, src: Speaker,
                          target: Option<Listener>, chatTypeOverride: u32, attrs: TextAttrs)
    requires Resolve(c.scriptTexts, c.broadcast, textId) == Some(attrs)
    ensures var trace := DoScriptText(c, k, textId, Some(src), target, chatTypeOverride);
      var t := EffectiveType(attrs, chatTypeOverride);
      && (forall x: nat :: SoundToSource(x) in trace <==>
            x == attrs.sound && x != 0 && x in c.sounds && t != k.chat.zoneYell)
      && (forall m: nat, x: nat :: SoundToMap(m, x) in trace <==>
            x == attrs.sound && x != 0 && x in c.sounds && t == k.chat.zoneYell && src.onMap == Some(m))
      && (Error(SoundInvalid) in trace <==> attrs.sound != 0 && attrs.sound !in c.sounds)
  {
    var t := EffectiveType(attrs, chatTypeOverride);
    SoundRouting(c, k, src, attrs, t);
    ChatNoSoundOrEmote(k, textId, attrs, t, target);
    EmoteOnlyForUnits(src, attrs);
  }

  /** With the source and text present, a call performs the text's emote
      exactly when it has one and the speaker is a unit or a player, and
      reports an emote for any other speaker. */
  lemma DoScriptTextEmote(c: TextCatalogs, k: Codes, textId: int, src: Speaker,
                          target: Option<Listener>, chatTypeOverride: u32, attrs: TextAttrs)
    requires Resolve(c.scriptTexts, c.broadcast, textId) == Some(attrs)
    ensures var trace := DoScriptText(c, k, textId, Some(src), target, chatTypeOverride);
      && (forall x: nat :: PerformEmote(x) in trace <==>
            x == attrs.emote && x != 0 && (src.kind == UnitObject || src.kind == PlayerObject))
      && (Error(EmoteSourceInvalid) in trace <==> attrs.emote != 0 && src.kind == OtherObject)
  {
    var t := EffectiveType(attrs, chatTypeOverride);
    SoundRouting(c, k, src, attrs, t);
    ChatNoSoundOrEmote(k, textId, attrs, t, target);
    EmoteOnlyForUnits(src, attrs);
  }

  /** With valid codes and the source and text present, the call ends by
      speaking on the channel of the effective type (or by reporting a
      whisper without a player to whisper to); a type outside the seven
      says nothing. */
  lemma DoScriptTextChannel(c: TextCatalogs, k: Codes, textId: int, src: Speaker,
                            target: Option<Listener>, chatTypeOverride: u32, attrs: TextAttrs)
    requires k.Valid()
    requires Resolve(c.scriptTexts, c.broadcast, textId) == Some(attrs)
    ensures var trace := DoScriptText(c, k, textId, Some(src), target, chatTypeOverride);
      var t := EffectiveType(attrs, chatTypeOverride);
      var toPlayer := target.Some? && target.value.kind == PlayerObject;
      && (t == k.chat.say ==> trace[|trace| - 1] == Say(textId, attrs.language, target))
      && (t == k.chat.yell ==> trace[|trace| - 1] == Yell(textId, attrs.language, target))
      && (t == k.chat.textEmote ==> trace[|trace| - 1] == TextEmote(textId, target, false))
      && (t == k.chat.bossEmote ==> trace[|trace| - 1] == TextEmote(textId, target, true))
      && (t == k.chat.whisper && toPlayer ==> trace[|trace| - 1] == Whisper(textId, target.value, false))
      && (t == k.chat.bossWhisper && toPlayer ==> trace[|trace| - 1] == Whisper(textId, target.value, true))
      && ((t == k.chat.whisper || t == k.chat.bossWhisper) && !toPlayer ==>
            trace[|trace| - 1] == Error(WhisperWithoutPlayer))
      && (t == k.chat.zoneYell ==> trace[|trace| - 1] == YellToZone(textId, attrs.language, target))
      && (!k.chat.Listed(t) ==> forall e | e in trace :: !ChatEffect(e))
  {
    var t := EffectiveType(attrs, chatTypeOverride);
    var trace := DoScriptText(c, k, textId, Some(src), target, chatTypeOverride);
    var front := SoundEffects(c, k, src, attrs, t) + EmoteEffects(src, attrs);
    var chat := ChatEffects(k, textId, attrs, t, target);
    assert trace == front + chat;
    SoundRouting(c, k, src, attrs, t);
    EmoteOnlyForUnits(src, attrs);
    ChannelFollowsType(k, textId, attrs, t, target);
    assert forall e | e in front :: !ChatEffect(e);
  }

  /** Nothing is said before the sound and the emote: a chat effect can
      only be the last effect of a call. */
  lemma DoScriptTextSpeaksLast(c: TextCatalogs, k: Codes, textId: int, source: Option<Speaker>,
                               target: Option<Listener>, chatTypeOverride: u32)
    ensures var trace := DoScriptText(c, k, textId, source, target, chatTypeOverride);
      forall i | 0 <= i < |trace| - 1 :: !ChatEffect(trace[i])
  {
    var trace := DoScriptText(c, k, textId, source, target, chatTypeOverride);
    if source.Some? && Resolve(c.scriptTexts, c.broadcast, textId).Some? {
      var src := source.value;
      var attrs := Resolve(c.scriptTexts, c.broadcast, textId).value;
      var t := EffectiveType(attrs, chatTypeOverride);
      var front := SoundEffects(c, k, src, attrs, t) + EmoteEffects(src, attrs);
      assert trace == front + ChatEffects(k, textId, attrs, t, target);
      ChatNoSoundOrEmote(k, textId, attrs, t, target);
      assert forall e | e in front :: !ChatEffect(e);
      forall i | 0 <= i < |trace| - 1 ensures !ChatEffect(trace[i]) {
        assert trace[i] in front;
      }
    }
  }

  /** The stage of `DoScriptText` an effect belongs to: the sound (0), the
      emote (1) and the chat `switch` (2), each with its own error; any
      other effect is no stage of a call that found its source and text. */
  function Stage(e: Effect): nat {
    match e
    case SoundToSource(_) => 0
    case SoundToMap(_, _) => 0
    case PerformEmote(_) => 1
    case Say(_, _, _) => 2
    case Yell(_, _, _) => 2
    case TextEmote(_, _, _) => 2
    case Whisper(_, _, _) => 2
    case YellToZone(_, _, _) => 2
    case YellToMap(_, _, _, _, _) => 3
    case Error(f) =>
      if f == SoundInvalid then 0
      else if f == EmoteSourceInvalid then 1
      else if f == WhisperWithoutPlayer then 2
      else 3
  }

  /** With the source and text present, the whole trace runs through the
      stages in order: every effect belongs to a stage, and the stages
      strictly increase along the trace, so each stage contributes at most
      one effect, the sound comes before the emote, the emote before the
      speech, and nothing else is logged. */
  lemma DoScriptTextStages(c: TextCatalogs, k: Codes, textId: int, src: Speaker,
                           target: Option<Listener>, chatTypeOverride: u32)
    requires Resolve(c.scriptTexts, c.broadcast, textId).Some?
    ensures var trace := DoScriptText(c, k, textId, Some(src), target, chatTypeOverride);
      && |trace| <= 3
      && (forall i | 0 <= i < |trace| :: Stage(trace[i]) < 3)
      && (forall i, j | 0 <= i < j < |trace| :: Stage(trace[i]) < Stage(trace[j]))
  {
    var attrs := Resolve(c.scriptTexts, c.broadcast, textId).value;
    var t := EffectiveType(attrs, chatTypeOverride);
    var trace := DoScriptText(c, k, textId, Some(src), target, chatTypeOverride);
    var snd, emo, ch := SoundEffects(c, k, src, attrs, t), EmoteEffects(src, attrs),
      ChatEffects(k, textId, attrs, t, target);
    assert trace == snd + emo + ch;
    assert |snd| <= 1 && forall e | e in snd :: Stage(e) == 0;
    assert |emo| <= 1 && forall e | e in emo :: Stage(e) == 1;
    assert |ch| <= 1 && forall e | e in ch :: Stage(e) == 2;
    forall i | 0 <= i < |trace|
      ensures Stage(trace[i]) == if i < |snd| then 0 else if i < |snd| + |emo| then 1 else 2
    {
      if i < |snd| {
        assert trace[i] in snd;
      } else if i < |snd| + |emo| {
        assert trace[i] == emo[i - |snd|];
      } else {
        assert trace[i] == ch[i - |snd| - |emo|];
      }
    }
  }

  /** The chat part holds one effect at most, never a sound or an emote. */
  lemma ChatNoSoundOrEmote(k: Codes, textId: int, attrs: TextAttrs, t: nat, target: Option<Listener>)
    ensures var s := ChatEffects(k, textId, attrs, t, target);
      && |s| <= 1
      && forall e | e in s ::
           !e.SoundToSource? && !e.SoundToMap? && !e.PerformEmote?
           && e != Error(SoundInvalid) && e != Error(EmoteSourceInvalid)
  {
  }

  /** A valid sound goes to the speaker's whole map for a zone yell and to
      the speaker otherwise; an unknown sound is only reported, and no
      sound id means no sound. */
  lemma SoundRouting(c: TextCatalogs, k: Codes, src: Speaker, attrs: TextAttrs, t: nat)
    ensures var s := SoundEffects(c, k, src, attrs, t);
      && (attrs.sound == 0 ==> s == [])
      && (attrs.sound != 0 && attrs.sound !in c.sounds ==> s == [Error(SoundInvalid)])
      && (attrs.sound != 0 && attrs.sound in c.sounds && t == k.chat.zoneYell ==>
            s == if src.onMap.Some? then [SoundToMap(src.onMap.value, attrs.sound)] else [])
      && (attrs.sound != 0 && attrs.sound in c.sounds && t != k.chat.zoneYell ==>
            s == [SoundToSource(attrs.sound)])
  {
  }

  /** An emote is performed exactly when there is one and the speaker is a
      unit or a player. */
  lemma EmoteOnlyForUnits(src: Speaker, attrs: TextAttrs)
    ensures PerformEmote(attrs.emote) in EmoteEffects(src, attrs) <==>
      attrs.emote != 0 && (src.kind == UnitObject || src.kind == PlayerObject)
  {
  }

  /** Whispers reach only players: a whisper effect is addressed to the
      call's target, which is a player. */
  lemma WhisperOnlyToPlayers(c: TextCatalogs, k: Codes, textId: int, source: Option<Speaker>,
                             target: Option<Listener>, chatTypeOverride: u32, e: Effect)
    requires e in DoScriptText(c, k, textId, source, target, chatTypeOverride) && e.Whisper?
    ensures target == Some(e.to) && e.to.kind == PlayerObject
  {
    match source
    case Some(src) =>
      var attrs := Resolve(c.scriptTexts, c.broadcast, textId).value;
      var t := EffectiveType(attrs, chatTypeOverride);
      assert e in ChatEffects(k, textId, attrs, t, target);
  }

  /** The chat channel follows the effective type: with valid codes, each
      of the seven types selects its own channel, and a type outside the
      seven, whether above zone yell or in a gap between the codes, says
      nothing. */
  lemma ChannelFollowsType(k: Codes, textId: int, attrs: TextAttrs, t: nat, target: Option<Listener>)
    requires k.Valid()
    ensures var s := ChatEffects(k, textId, attrs, t, target);
      && (t == k.chat.say <==> s == [Say(textId, attrs.language, target)])
      && (t == k.chat.yell <==> s == [Yell(textId, attrs.language, target)])
      && (t == k.chat.textEmote <==> s == [TextEmote(textId, target, false)])
      && (t == k.chat.bossEmote <==> s == [TextEmote(textId, target, true)])
      && (t == k.chat.zoneYell <==> s == [YellToZone(textId, attrs.language, target)])
      && (t == k.chat.whisper && target.Some? && target.value.kind == PlayerObject <==>
            target.Some? && s == [Whisper(textId, target.value, false)])
      && (t == k.chat.bossWhisper && target.Some? && target.value.kind == PlayerObject <==>
            target.Some? && s == [Whisper(textId, target.value, true)])
      && ((t == k.chat.whisper || t == k.chat.bossWhisper) && (target.None? || target.value.kind != PlayerObject) <==>
            s == [Error(WhisperWithoutPlayer)])
      && (!k.chat.Listed(t) <==> s == [])
  {
  }

  /** The override makes the text row's stored type irrelevant. */
  lemma OverrideIgnoresStoredType(c: TextCatalogs, k: Codes, textId: int, source: Option<Speaker>,
                                  target: Option<Listener>, chatTypeOverride: u32, chatType: nat)
    requires chatTypeOverride != 0
    requires textId >= 0 ==> textId in c.broadcast
    requires textId < 0 ==> textId in c.scriptTexts
    ensures var c' := if textId >= 0 then c.(broadcast := c.broadcast[textId := c.broadcast[textId].(chatType := chatType)])
                      else c.(scriptTexts := c.scriptTexts[textId := c.scriptTexts[textId].(chatType := chatType)]);
      DoScriptText(c', k, textId, source, target, chatTypeOverride)
        == DoScriptText(c, k, textId, source, target, chatTypeOverride)
  {
  }

  /** `DoOrSimulateScriptTextForMap(iTextEntry, uiCreatureEntry, pMap,
      pCreatureSource, pTarget)`: only zone yells are supported, and the
      sound is played to the map without being checked. */
  function DoOrSimulateScriptTextForMap(c: TextCatalogs, k: Codes, textId: int, creatureEntry: nat,
                                        pMap: Option<nat>, creatureSource: Option<nat>,
                                        target: Option<Listener>): (trace: seq<Effect>)
    ensures pMap.None? ==> trace == [Error(MapMissing)]
    ensures pMap.Some? && creatureEntry !in c.creatureTemplates ==> trace == [Error(CreatureEntryInvalid)]
    ensures |trace| <= 2
  {
    match pMap
    case None => [Error(MapMissing)]
    case Some(m) =>
      if creatureEntry !in c.creatureTemplates then [Error(CreatureEntryInvalid)]
      else
        match Resolve(c.serverStrings, c.broadcast, textId)
        case None => [Error(if textId >= 0 then BroadcastTextMissing else TextMissing)]
        case Some(attrs) =>
          if attrs.chatType % 256 != k.chat.zoneYell then [Error(ChatTypeUnsupported)]
          else
            var voice := if creatureSource.Some? then CreatureVoice(creatureSource.value) else SimulatedVoice(creatureEntry);
            (if attrs.sound != 0 then [SoundToMap(m, attrs.sound)] else [])
              + [YellToMap(m, voice, textId, attrs.language, target)]
  }

  /** The map variant emits anything at all only for a text whose type is
      zone yell; then it yells to the map, after the sound if there is one,
      in the given creature's name or, without one, in the template's. */
  lemma MapTextOnlyZoneYell(c: TextCatalogs, k: Codes, textId: int, creatureEntry: nat,
                            pMap: Option<nat>, creatureSource: Option<nat>, target: Option<Listener>)
    ensures var trace := DoOrSimulateScriptTextForMap(c, k, textId, creatureEntry, pMap, creatureSource, target);
      var attrs := Resolve(c.serverStrings, c.broadcast, textId);
      && ((exists e | e in trace :: Emission(e)) <==>
            pMap.Some? && creatureEntry in c.creatureTemplates && attrs.Some? && attrs.value.chatType % 256 == k.chat.zoneYell)
      && (pMap.Some? && creatureEntry in c.creatureTemplates && attrs.Some? && attrs.value.chatType % 256 == k.chat.zoneYell ==>
            trace[|trace| - 1] == YellToMap(pMap.value,
              if creatureSource.Some? then CreatureVoice(creatureSource.value) else SimulatedVoice(creatureEntry),
              textId, attrs.value.language, target)
            && (SoundToMap(pMap.value, attrs.value.sound) in trace <==> attrs.value.sound != 0))
  {
    var trace := DoOrSimulateScriptTextForMap(c, k, textId, creatureEntry, pMap, creatureSource, target);
    var attrs := Resolve(c.serverStrings, c.broadcast, textId);
    if pMap.Some? && creatureEntry in c.creatureTemplates && attrs.Some? && attrs.value.chatType % 256 == k.chat.zoneYell {
      assert Emission(trace[|trace| - 1]);
    }
  }
}

=== FILE: text_data.dfy ===
/** The extra data of the script text tables (`LoadScriptTexts`,
    `LoadScriptTextsCustom`): every row with a negative id lands in the
    text data map that `DoScriptText` reads, a later row replacing an
    earlier one with the same id; a row with a non-negative id is dropped,
    while an unknown sound, language or chat type is only reported. */
module TextData {
  import opened Defs
  import opened TextAnnouncer

  /** One row of `script_texts` or `custom_texts`. */
  datatype TextRow = TextRow(id: int, sound: nat, chatType: nat, language: nat, emote: nat)

  datatype TextDiagnostic =
    | IdNotNegative(id: int)
    | TextSoundMissing(id: int, sound: nat)
    | LanguageMissing(id: int, language: nat)
    | ChatTypeMissing(id: int, chatType: nat)

  function AttrsOf(row: TextRow): TextAttrs {
    TextAttrs(row.chatType, row.emote, row.language, row.sound)
  }

  /** The diagnostics one row draws, in the order they are logged. */
  function RowDiagnostics(sounds: set<nat>, languages: set<nat>, k: Codes, row: TextRow): (r: seq<TextDiagnostic>)
    ensures row.id >= 0 ==> r == [IdNotNegative(row.id)]
    ensures IdNotNegative(row.id) in r <==> row.id >= 0
    ensures row.id < 0 ==>
      && (TextSoundMissing(row.id, row.sound) in r <==> row.sound != 0 && row.sound !in sounds)
      && (LanguageMissing(row.id, row.language) in r <==> row.language !in languages)
      && (ChatTypeMissing(row.id, row.chatType) in r <==> row.chatType > k.chat.zoneYell)
  {
    if row.id >= 0 then [IdNotNegative(row.id)]
    else
      (if row.sound != 0 && row.sound !in sounds then [TextSoundMissing(row.id, row.sound)] else [])
      + (if row.language !in languages then [LanguageMissing(row.id, row.language)] else [])
      + (if row.chatType > k.chat.zoneYell then [ChatTypeMissing(row.id, row.chatType)] else [])
  }

  datatype TextLoad = TextLoad(data: map<int, TextAttrs>, count: nat, log: seq<TextDiagnostic>)

  /** The loop over the query result, starting from the map as it is. */
  function LoadTexts(data: map<int, TextAttrs>, sounds: set<nat>, languages: set<nat>, k: Codes,
                     rows: seq<TextRow>): (r: TextLoad)
    decreases |rows|
  {
    if rows == [] then TextLoad(data, 0, [])
    else
      var prev := LoadTexts(data, sounds, languages, k, rows[..|rows| - 1]);
      var row := rows[|rows| - 1];
      var log := prev.log + RowDiagnostics(sounds, languages, k, row);
      if row.id >= 0 then prev.(log := log)
      else TextLoad(prev.data[row.id := AttrsOf(row)], prev.count + 1, log)
  }

  /** The last row of `rows` with id `id`, if any. */
  function LastWithId(rows: seq<TextRow>, id: int): Option<TextRow>
    decreases |rows|
  {
    if rows == [] then None
    else if rows[|rows| - 1].id == id then Some(rows[|rows| - 1])
    else LastWithId(rows[..|rows| - 1], id)
  }

  function NegativeCount(rows: seq<TextRow>): nat
    decreases |rows|
  {
    if rows == [] then 0
    else NegativeCount(rows[..|rows| - 1]) + if rows[|rows| - 1].id < 0 then 1 else 0
  }

  /** After loading, a negative id holds the attributes of its last row,
      whatever that row's sound, language or type; ids without a row keep
      their earlier data; non-negative ids are never added; and the count
      is the number of rows with a negative id. */
  lemma {:induction false} LoadTextsContents(data: map<int, TextAttrs>, sounds: set<nat>, languages: set<nat>,
                                             k: Codes, rows: seq<TextRow>, id: int)
    ensures var r := LoadTexts(data, sounds, languages, k, rows);
      && r.count == NegativeCount(rows)
      && (id < 0 && LastWithId(rows, id).Some? ==> id in r.data && r.data[id] == AttrsOf(LastWithId(rows, id).value))
      && (id >= 0 || LastWithId(rows, id).None? ==> (id in r.data <==> id in data) && (id in data ==> r.data[id] == data[id]))
    decreases |rows|
  {
    if rows != [] {
      LoadTextsContents(data, sounds, languages, k, rows[..|rows| - 1], id);
    }
  }

  /** Only a non-negative id drops a row; the other checks only warn. */
  lemma RowKeptUnlessIdNotNegative(data: map<int, TextAttrs>, sounds: set<nat>, languages: set<nat>,
                                   k: Codes, rows: seq<TextRow>, row: TextRow)
    requires row.id < 0
    ensures var r := LoadTexts(data, sounds, languages, k, rows + [row]);
      r.data == LoadTexts(data, sounds, languages, k, rows).data[row.id := AttrsOf(row)]
  {
    assert (rows + [row])[..|rows|] == rows;
  }
}
